=== FILE: README.md ===
# CHIP-8 interpreter core in Dafny

This project models the virtual CPU of a small CHIP-8 interpreter written in
C++, together with the framebuffer logic its draw instruction uses. It also
covers two functions of the interpreter's earlier C prototype.

The machine state is an immutable record (`Chip8.Machine`) with these fields:

- sixteen 8-bit registers `V`;
- the 16-bit index register `I`;
- the 16-bit program counter `pc`;
- the return-address stack;
- 4096 bytes of memory;
- a 64 × 32 framebuffer of one-bit cells.

`Chip8.Step` is `Chip8::step`. It checks `pc`, fetches the big-endian word at
`pc`, decodes it, and dispatches on the high nibble to the handlers `op0` ..
`opF`. Its result is either `Ok(next, effect)` or `Fatal(fault)`.

The rest of the model is split into these modules:

- `Bits`: the 8- and 16-bit wrap-around of `uint8_t` and `uint16_t`, and the
  bitwise operators.
- `Decoder`: word formation and field extraction.
- `Memory`: the 4 KiB byte array.
- `Framebuffer`: `place_pixel` and `clear_screen`.
- `Sprite`: the nested `DXYN` loop.
- `Prototype`: `fetch_instr` and `zero_mem` from the C prototype.
- `SpriteProps` and `Chip8Props`: the properties.

Values the handlers get from collaborators outside the core are fields of an
`Io` record passed to `Step`: the key state, the delay timer, the awaited key
and `std::rand()`. The one write to such a collaborator, `set_timer` in
`FX15`, is returned as the step's `Effect`.

Conditions under which the C++ program aborts or has undefined behaviour are
`Fatal` outcomes:

- the `assert` on `pc`;
- `std::exit` on an unmapped `8XY?`, `EX??` or `FX??`;
- `top()` on an empty call stack;
- a memory access at or above address 4096.

The memory unit's own code is not part of this model. include/mem.h declares
a 4096-byte array and accessors that take a `uint16_t` address. So an address is
truncated to 16 bits first, and anything outside the array is treated as
fatal.

Where the code and the behaviour usually documented for CHIP-8 disagree, the
model follows the code:

- `8XY4` computes the sum in a `uint16_t` and takes bit 16 of it as the
  carry, so VF is always 0.
- `8XY7` stores `VY - VX` in VY, not VX.
- In `8XY5`, `8XY6`, `8XY7` and `8XYE`, VF is written before the
  destination, which is VX, or VY for `8XY7`. When the destination is F,
  the flag is therefore overwritten by the result. Otherwise a source
  operand that is F reads the freshly written flag. `8XY4` is the other
  way round: it writes VX first and VF last, so `8FY4` leaves VF = 0.
- `FX1E` sets VF when the 16-bit sum `I + VX` exceeds 0xFFF, and then masks
  `I` to 12 bits.
- `place_pixel` addresses cell `x * 32 + y` and ignores a position at or
  beyond 2048. Sprite coordinates are therefore not wrapped modulo 64 × 32:
  - line y of column x lands in column `x + y / 32` at row `y % 32`, so a
    line at or past 32 bleeds `y / 32` columns further on;
  - a cell past 2047, such as any column at or past 64, is clipped.
- `BNNN` jumps to `NNN + V0` unmasked, and `FX29` sets `I = 5 * VX`.

include/periphs.h is out of date with respect to src/periphs.cpp. It
declares only the SDL window and surface, not `m_pxscale`, `m_renderer` or
`m_framebuf`, so the element type of `m_framebuf` is not known.
`place_pixel` only ever stores 0 or 1 in it, so cells are `bool`.

The central results are these:

- **`DXYN`** (`Chip8Props.DrawSprite`, `SpriteProps.DrawEffect`). A sprite of
  at most 15 rows toggles exactly the cells under its 1-bits. VF is 1 exactly
  when one of those cells was lit, and drawing the same sprite twice restores
  the buffer. This rests on the fact that no two pixels of such a sprite hit
  the same cell, even when rows run past the bottom edge into the next column
  or coordinates wrap at 256.
- **Call and return.** A call followed by a return comes back to the
  instruction after the call, with the stack as it was.
- **`FX55` then `FX65`** round-trips the registers through memory.
- **`FX33`** stores the decimal digits of VX.
- **Each opcode family** has its effect stated against the machine before
  the step, including the code's own quirks.

## Model

| member | source | states |
|---|---|---|
| Bits.Wrap8 | src/chip8.cpp:247 | Storing an `int` into a `uint8_t` keeps it modulo 256, and values already in range are unchanged. |
| Bits.Wrap16 | src/chip8.cpp:408 | Storing an `int` into a `uint16_t` keeps it modulo 65536, and values already in range are unchanged. |
| Bits.Bit | src/chip8.cpp:352 | Bit k of `a` is `(a / 2^k) % 2`, which is `(a >> k) & 1`. |
| Bits.And | src/chip8.cpp:266 | Bit k of `a & b` is 1 exactly when bit k of both `a` and `b` is 1, for every k. The result is no larger than either operand. |
| Bits.Or | src/chip8.cpp:262 | Bit k of `a \| b` is 1 exactly when bit k of `a` or of `b` is 1, for every k. The result lies between the larger operand and their sum. |
| Bits.Xor | src/chip8.cpp:270 | Bit k of `a ^ b` is 1 exactly when bits k of `a` and `b` differ, for every k. The result is zero exactly when `a == b`. |
| Bits.OrXorBelow | src/chip8.cpp:262-270 | OR and XOR of two k-bit values are k-bit values, so `\|=` and `^=` on `uint8_t` never overflow. |
| Bits.AndByte | src/chip8.cpp:266 | `VX & VY` on bytes is a byte whose bit k is the AND of the operands' bits k. It is no larger than either operand. |
| Bits.OrByte | src/chip8.cpp:262 | `VX \| VY` on bytes is a byte whose bit k is the OR of the operands' bits k, so `\|=` on a `uint8_t` never overflows. It is no smaller than either operand. |
| Bits.XorByte | src/chip8.cpp:270 | `VX ^ VY` on bytes is a byte whose bit k is set exactly when the operands' bits k differ. It is zero exactly when they are equal. |
| Bits.OrDisjoint | src/phases.c:19 | `(a << k) \| b` with `b < 2^k` equals `a * 2^k + b`: the bits do not overlap. |
| Bits.AndIdempotent | src/chip8.cpp:332 | Masking twice with the same mask equals masking once. |
| Memory.Zeroed | include/mem.h:8 | The memory unit's initial array has 4096 bytes, all 0. |
| Memory.Write | include/mem.h:14-15 | A byte written at an address below 4096 reads back there, and no other address changes. |
| Memory.Addr | src/chip8.cpp:348 | `I+i` reaches the memory unit truncated to 16 bits: it is congruent to `I+i` modulo 2^16, and equal to it without wrap. The same address is used at 418-427 and 432-441. |
| Memory.Store | src/chip8.cpp:425-427 | A write succeeds exactly for an address below 4096. On failure the offending address is reported; on success the byte reads back and no other address changes. |
| Framebuffer.Blank | src/periphs.cpp:15-23 | The constructed buffer has 64 × 32 = 2048 cells, all 0. |
| Framebuffer.Clear | src/periphs.cpp:83 | After `clear_screen` every cell is 0 and the size is unchanged. |
| Framebuffer.Pos | src/periphs.cpp:89 | Cell `x*32 + y` is column x, row y: for an on-screen row, division and remainder by 32 give back x and y. |
| Framebuffer.PlacePixel | src/periphs.cpp:87-112 | A position at or beyond 2048 changes nothing and reports no collision. Otherwise the collision is "old cell lit and pixval non-zero", a 0/1 pixval XORs into the cell, and no other cell changes. |
| Framebuffer.PlaceTwiceRestores | src/periphs.cpp:97-101 | Placing the same 0/1 value at the same place twice restores the buffer. |
| Framebuffer.PlaceTwiceOnBlank | src/periphs.cpp:97-101 | On a blank buffer the first place never collides. The second collides exactly when a 1 was placed on screen. |
| Framebuffer.PlaceZeroIsIdentity | src/periphs.cpp:97-101 | Placing a 0 never changes the buffer and never collides. |
| Framebuffer.OffScreenIsClipped | src/periphs.cpp:89-95 | A column at or past 64 is clipped, not wrapped. |
| Framebuffer.RowOverflowBleeds | src/periphs.cpp:89-95 | A row in 32..63 is not wrapped. It addresses the same cell as row `y - 32` of the next column. |
| Decoder.Word | src/chip8.cpp:135 | The fetched word's high byte is `mem[pc]` and its low byte is `mem[pc+1]`. |
| Decoder.WordIsShiftOr | src/chip8.cpp:135 | `Word` equals the shift-and-OR the code writes. |
| Decoder.Bytes | src/phases.c:19 | Splitting a word into bytes is a right inverse of `Word`. |
| Decoder.WordBytesRoundTrip | src/phases.c:19 | Splitting the word formed from two bytes gives back those bytes. |
| Decoder.Decode | src/chip8.cpp:140-147 | Every field is in range, `nn` and `nnn` are made of the lower nibbles, and the fields put together give back the raw word. |
| Decoder.NibbleFacts | src/chip8.cpp:142-147 | The shifted-and-masked nibbles are in range and recompose the word, `nn` and `nnn`. |
| Decoder.DecodeAssemble | src/chip8.cpp:142-147 | Decoding a word assembled from four nibbles returns those nibbles. |
| Decoder.NibblesUnique | src/chip8.cpp:142-147 | Four nibbles are determined by the word they form. |
| Decoder.DecodeWord | src/chip8.cpp:135-147 | The opcode and X are the nibbles of `mem[pc]`, and `nn`, Y and N come from `mem[pc+1]`. |
| Sprite.Coord | src/chip8.cpp:345-357 | A coordinate incremented k times with `x++` or `y++` as a `uint8_t` is `(start + k) % 256`: pixel j of a row is at column `(VX + j) % 256`, and row i at line `(VY + i) % 256`. |
| Sprite.ReadRows | src/chip8.cpp:347-348 | Reading sprite rows succeeds exactly when every row address (truncated to 16 bits) is in memory. It then yields `mem[I+i]` for each row; otherwise it yields an out-of-range address. |
| Sprite.PixelBit | src/chip8.cpp:352 | Pixel j of a row is bit `7 - j`, i.e. `(row / 2^(7-j)) % 2`: pixel 0 is the top bit `row / 128` and pixel 7 is the low bit `row % 2`. |
| Sprite.DrawRow | src/chip8.cpp:350-356 | The 8 places of one row, with x wrapping as a `uint8_t`, keep the buffer's size, and a row of 0 changes nothing and never collides. The toggle and collision meaning is stated by `SpriteProps.DrawRowEffect`. |
| Sprite.BlankPixel | src/chip8.cpp:352-353 | Every pixel of a row of 0 is 0, and placing it leaves the buffer unchanged without collision. |
| Sprite.DrawRows | src/chip8.cpp:347-358 | The rows of a sprite, with y wrapping as a `uint8_t`, keep the buffer's size, and rows that are all 0 change nothing and never collide. The toggle and collision meaning is stated by `SpriteProps.DrawRowsEffect`. |
| Sprite.Draw | src/chip8.cpp:345-359 | The draw loop succeeds exactly when every row is in memory. On failure it names an address outside memory. |
| SpriteProps.RowTargetsDistinct | src/chip8.cpp:349-355 | The 8 pixels of one row hit 8 different cells, with x wrapping as a `uint8_t`. |
| SpriteProps.RowsTargetsDistinct | src/chip8.cpp:345-357 | Pixels of two different rows of a sprite of at most 16 rows hit different cells, with y wrapping as a `uint8_t`. |
| SpriteProps.RowCellsStep | src/chip8.cpp:350-356 | A row's lit cells are its first pixel's cell (when lit) plus the rest, and that cell is not among the rest. |
| SpriteProps.SpriteCellsStep | src/chip8.cpp:347-358 | A sprite's lit cells are the first row's plus the rest's, and the two sets are disjoint. |
| SpriteProps.PlaceToggles | src/periphs.cpp:97-101 | One place of a 0/1 value toggles exactly the cell under a 1, and collides exactly when that cell was lit. |
| SpriteProps.ToggleCompose | src/chip8.cpp:354 | Toggling two disjoint cell sets in turn toggles their union. OR-ing the collisions equals asking whether the union met a lit cell. |
| SpriteProps.DrawRowEffect | src/chip8.cpp:350-356 | The 8 places of one row toggle exactly its lit cells. The OR of their collisions is "one of those cells was lit". |
| SpriteProps.DrawRowsEffect | src/chip8.cpp:347-358 | The rows of a sprite of at most 16 rows toggle exactly its lit cells. The collision is "one of those cells was lit". |
| SpriteProps.DrawTwiceRestores | src/chip8.cpp:345-358 | Drawing the same sprite twice at the same place restores the framebuffer. |
| SpriteProps.DrawOnBlank | src/chip8.cpp:345-359 | A sprite drawn on a blank buffer never collides. Drawn again, it collides exactly when one of its lit pixels is on screen. |
| SpriteProps.DrawEffect | src/chip8.cpp:345-359 | When all rows are in memory, the rows are `mem[I+i]`, the buffer is toggled at their lit cells, and the collision says whether one was lit. |
| Chip8.Boot | src/chip8.cpp:72-73 | The constructed machine has `I = 0`, `pc = 0x200`, an empty call stack and a blank framebuffer. |
| Chip8.Advance | src/chip8.cpp:241 | `pc += d` changes only `pc`, which becomes `(pc + d) % 2^16`, i.e. exactly `pc + d` when no 16-bit wrap occurs. |
| Chip8.Continue | src/chip8.cpp:241 | A handler's closing `pc += 2` always succeeds with no effect and changes nothing but `pc`, which becomes `(pc + 2) % 2^16`, i.e. `pc + 2` when no 16-bit wrap occurs. |
| Chip8.Skip | src/chip8.cpp:207-215 | A conditional skip always succeeds and changes nothing but `pc`, which moves by 4 when taken and by 2 otherwise, modulo 2^16. |
| Chip8.Step | src/chip8.cpp:127-155 | `step` keeps the machine well formed. It reports `PcOutOfRange` exactly when `pc` is outside `[0x200, 4096)`. |
| Chip8.Execute | src/chip8.cpp:150-153 | Dispatch goes to the handler of the high nibble. Only `FX15` writes the delay timer, and no handler reports `PcOutOfRange`. |
| Chip8.Op0 | src/chip8.cpp:165-188 | `op0` fails exactly on `00EE` with an empty call stack. |
| Chip8.Op8 | src/chip8.cpp:252-304 | `op8` fails exactly for a low nibble outside {0..7, E}. |
| Chip8.OpD | src/chip8.cpp:336-362 | `opD` keeps the machine well formed and fails only with a memory fault. |
| Chip8.OpE | src/chip8.cpp:364-382 | `opE` fails exactly for a low byte outside {9E, A1}. |
| Chip8.OpF | src/chip8.cpp:384-449 | `opF` fails as unsupported exactly for a low byte outside the nine handled ones. 55 and 65 are the register block transfers. |
| Chip8.StoreBlock | src/chip8.cpp:430-436 | `FX55` keeps the machine well formed and can only fail with a bad address. |
| Chip8.LoadBlock | src/chip8.cpp:437-443 | `FX65` keeps the machine well formed and can only fail with a bad address. |
| Chip8.StoreBcd | src/chip8.cpp:417-428 | `FX33`'s writes succeed exactly when `I+2` is in memory, and otherwise name the first bad address. On success `mem[I..I+2]` are the hundreds, tens and ones of VX, and every other byte is kept. |
| Chip8.DecimalDigits | src/chip8.cpp:422-424 | `(v%100)/10` and `(v%100)%10` are the tens and ones digits, the hundreds digit is at most 2, and `100h + 10t + o == v`. |
| Chip8.RegAddrsDistinct | src/chip8.cpp:432-434 | The 16-bit addresses `I+i` of a register block are pairwise distinct. |
| Chip8.StoreRegs | src/chip8.cpp:432-434 | The `FX55` loop succeeds exactly when every `I+i` is in memory. It then writes `V[i]` at each, and every other byte is kept. |
| Chip8.LoadRegs | src/chip8.cpp:439-441 | The `FX65` loop succeeds exactly when every `I+i` is in memory. It then loads `mem[I+i]` into `V[i]`, and the other registers are kept. |
| Chip8Props.StepFetchGuard | src/chip8.cpp:131-135 | A `pc` outside `[0x200, 4096)` is fatal, and `pc = 4095` is fatal at address 4096. |
| Chip8Props.StepNop | src/chip8.cpp:136-139 | The all-zero word only advances `pc` by 2 (`nop`, lines 157-161). |
| Chip8Props.FetchAgreesWithStep | src/phases.c:12-21 | Over the whole memory, the prototype's fetch succeeds exactly when `step` can read both bytes. It then yields the word `step` decodes; on failure `step` is fatal. |
| Chip8Props.StepDispatch | src/chip8.cpp:140-153 | A non-zero word is decoded and dispatched to the handler of its high nibble. |
| Chip8Props.SkipFamily | src/chip8.cpp:207-235 | `3XNN`, `4XNN`, `5XY0`, `9XY0` (306-314), `EX9E` and `EXA1` (364-377) move `pc` by 4 when their condition holds and by 2 otherwise. Nothing else changes. |
| Chip8Props.Call | src/chip8.cpp:197-201 | `2NNN` pushes `pc` and jumps to NNN. |
| Chip8Props.CallThenReturn | src/chip8.cpp:173-176 | A `00EE` at the target of a `2NNN` comes back to the instruction after the call, with the stack as before the call. |
| Chip8Props.Return | src/chip8.cpp:173-176 | `00EE` pops the top address and resumes 2 bytes after it. With an empty stack it is fatal. |
| Chip8Props.SystemGroup | src/chip8.cpp:165-188 | `00E0` blanks the framebuffer and advances `pc`. Any other `0NNN` only advances `pc`. |
| Chip8Props.Jumps | src/chip8.cpp:316-327 | `ANNN` loads I. `BNNN` jumps to `NNN + V0` unmasked. `1NNN` (190-195) jumps to NNN. |
| Chip8Props.Immediates | src/chip8.cpp:237-250 | `6XNN` loads NN into VX. `7XNN` adds NN modulo 256 and touches no other register. |
| Chip8Props.RandomMasked | src/chip8.cpp:329-334 | `CXNN` sets VX to the random value masked by NN, so VX has no bit outside NN. |
| Chip8Props.AluLogic | src/chip8.cpp:256-271 | `8XY0`..`8XY3` copy, OR, AND or XOR into VX with no flag side effect. |
| Chip8Props.AddNeverCarries | src/chip8.cpp:272-277 | `8XY4` sets VX to the sum modulo 256, and then VF is 0 whatever the operands. |
| Chip8Props.Subtract | src/chip8.cpp:278-282 | For every X and Y, `8XY5` first sets VF to "no borrow" (`VX >= VY`), then VX to `VX - VY` modulo 256 read from the updated registers. For X, Y other than F this is VF = no borrow, VX = `VX - VY` with the original operands, and nothing else changes. |
| Chip8Props.SubtractReverse | src/chip8.cpp:288-292 | For every X and Y, `8XY7` first sets VF to "no borrow" (`VY >= VX`), then VY to `VY - VX` modulo 256 read from the updated registers; VX is not the destination. For X, Y other than F the operands are the original ones. |
| Chip8Props.ShiftRight | src/chip8.cpp:283-287 | For every X, `8XY6` first puts the low bit of VX in VF, then halves VX as updated. For X other than F, `2*VX' + VF == VX` and other registers are kept. |
| Chip8Props.ShiftLeft | src/chip8.cpp:293-298 | For every X, `8XYE` first puts the top bit of VX in VF, then doubles VX as updated, modulo 256. For X other than F, `VX'/2 + 128*VF == VX`, VX' is even and other registers are kept. |
| Chip8Props.FlagOverwritten | src/chip8.cpp:278-298 | With X = F, the flag written first becomes the operand: `8FY5` leaves `flag - VY` (`flag - flag` when Y = F as well), `8FY6` leaves 0, and `8FYE` leaves twice the old top bit. |
| Chip8Props.FlagOverwrittenReverse | src/chip8.cpp:288-292 | For `8XY7` with Y = F, VF ends as `flag - VX` (`flag - flag` when X = F as well). With X = F only, VF keeps the flag and VY becomes `VY - flag`. |
| Chip8Props.AluUnsupported | src/chip8.cpp:299-301 | An `8XY?` with an unmapped low nibble is fatal. |
| Chip8Props.KeyAndMiscUnsupported | src/chip8.cpp:444-446 | An `FX??` with an unmapped low byte is fatal, and so is an `EX??` (378-380). |
| Chip8Props.TimerAndKey | src/chip8.cpp:388-404 | `FX07` and `FX0A` load the timer and the awaited key into VX. `FX15` hands VX to the timer, and `FX18` only advances `pc`. |
| Chip8Props.AddToIndex | src/chip8.cpp:405-411 | `FX1E` sets VF when the 16-bit `I + VX` exceeds 0xFFF and masks I to 12 bits. From a 12-bit I, `VF*0x1000 + I' == I + VX`. |
| Chip8Props.FontGlyph | src/chip8.cpp:412-416 | `FX29` sets I to `5 * VX`, a multiple of 5 below 1280. |
| Chip8Props.Step0 | src/chip8.cpp:150-153 | A fetched non-zero `0NNN` is handled by `op0`. |
| Chip8Props.Step8 | src/chip8.cpp:150-153 | A fetched `8XY?` is handled by `op8`. |
| Chip8Props.StepD | src/chip8.cpp:150-153 | A fetched `DXYN` is handled by `opD`. |
| Chip8Props.StepF | src/chip8.cpp:150-153 | A fetched `FX??` is handled by `opF`. |
| Chip8Props.DrawSprite | src/chip8.cpp:336-362 | `DXYN` succeeds exactly when every row is in memory. It then toggles exactly the sprite's lit cells and sets VF to 1 iff one was lit; only the framebuffer, VF and `pc` change. |
| Chip8Props.DrawSpriteOp | src/chip8.cpp:336-362 | The same as `DrawSprite`, for the handler once dispatched. |
| Chip8Props.StoreDecimal | src/chip8.cpp:417-428 | `FX33` succeeds exactly when `I+2` is in memory. It stores digits `h <= 2`, `t, o <= 9` with `100h+10t+o == VX` and keeps every other byte. |
| Chip8Props.StoreRegisters | src/chip8.cpp:430-436 | `FX55` succeeds exactly when `I+X` is in memory. It stores V0..VX at I..I+X, keeps every other byte, and sets `I := I+X+1`. |
| Chip8Props.StoreBlockEffect | src/chip8.cpp:430-436 | The same as `StoreRegisters`, for the handler once dispatched. |
| Chip8Props.StoreBlockFits | src/chip8.cpp:430-436 | With `I+X` in memory, `FX55` succeeds with V0..VX at I..I+X, every other byte kept and `I := I+X+1`. |
| Chip8Props.StoreRegsBlock | src/chip8.cpp:432-434 | For a block inside memory, the store loop puts `V[k]` at `I+k` and keeps everything else. |
| Chip8Props.LoadRegisters | src/chip8.cpp:437-443 | `FX65` succeeds exactly when `I+X` is in memory. It loads V0..VX from I..I+X, keeps V(X+1)..VF, and sets `I := I+X+1`. |
| Chip8Props.LoadBlockEffect | src/chip8.cpp:437-443 | The same as `LoadRegisters`, for the handler once dispatched. |
| Chip8Props.LoadBlockFits | src/chip8.cpp:437-443 | With `I+X` in memory, `FX65` succeeds with V0..VX loaded from I..I+X, the other registers kept and `I := I+X+1`. |
| Chip8Props.LoadRegsBlock | src/chip8.cpp:439-441 | For a block inside memory, the load loop puts `mem[I+k]` in `V[k]` and keeps the other registers. |
| Chip8Props.BlockFits | src/chip8.cpp:432-433 | Every 16-bit address `I+k`, k ≤ X, is in memory exactly when `I+X < 4096`. |
| Chip8Props.SaveThenLoad | src/chip8.cpp:430-443 | `FX55` then `FX65` from the same I with the same X restores the register file unchanged and leaves memory as stored. |
| Prototype.FetchInstr | src/phases.c:12-21 | Returns 1 exactly when `addr+1 >= size` and leaves `*instr` alone. Otherwise returns 0 with `*instr` split into `mem[addr]`, `mem[addr+1]`. |
| Prototype.ZeroMem | src/chip8.c:32-37 | Bytes below `size` become 0 and the rest are unchanged. `size == 0` changes nothing, and zeroing all of memory gives the zeroed memory. |
| Prototype.ZeroedPrefixIdempotent | src/chip8.c:32-37 | Zeroing twice equals zeroing once, and the bytes from `size` on are kept. |

## Left out

- SDL window, renderer, event polling and `refresh` (src/periphs.cpp:26-67, 72-81, 103-110, 114 on): these are foreign library calls with no effect on the buffer.
- `get_keystate`, `get_timer`, `set_timer`, `await_keypress` and `std::rand`: src/chip8.cpp calls them, but src/periphs.cpp does not define the first four. They are `Io` inputs, and `FX15`'s `set_timer` is reported as an `Effect`. Neither src/chip8.cpp nor src/periphs.cpp decrements the delay timer, so timer decay is not modelled.
- `FX0A`'s blocking wait: this is I/O. The model only stores the awaited key.
- `load_program`, `run` and `dump` (src/chip8.cpp:100-125, 451-473), and all stderr logging: these are stream I/O, an infinite refresh loop and diagnostics.
- The internals of the memory unit and its font: include/mem.h declares `Mem::write`, `Mem::read` and `write_font`, but their definitions are not in src/chip8.cpp or src/periphs.cpp. Memory is a plain 4096-byte sequence, and an access outside it is fatal.
- Memory.Write: the definition of `Mem::write` is not part of this model, so the model assumes that every address below 4096, the font area included, stores and reads back. test/test_mem.cpp (lines 21-27) checks the read-back only from 0x80 on.
- `m_mem.size()` (src/chip8.cpp:120, 131) is taken to be 4096, the size of the array at include/mem.h:8. Neither include/mem.h nor include/device.h declares `size()`, so the header src/chip8.cpp is built against is not the one in include/.
- The register file's initial contents: the constructor leaves `V` uninitialised, so `Chip8.Boot` takes the registers as a parameter.
- src/graphics.c, src/dbgutils.c, src/main.cpp, the logging and error headers, and the interface-only headers: these are printing, argument handling and declarations with no behaviour.
- The prototype's other phases (`decode_instr` and the control-bit pipeline): these were abandoned and are not part of the running interpreter.
- Prototype.ZeroMem: the loop counter is an `int` compared with a `size_t`. For sizes beyond `INT_MAX` the C code overflows; the model uses an unbounded counter.
- Sprite.Draw: `opD` interleaves the row reads with the plotting, while the model reads all rows first. The two differ only in the framebuffer left behind when a later row read aborts the program, and that state is discarded by the fatal outcome.

=== FILE: bits.dfy ===
/** Fixed-width unsigned integers of the interpreter (`uint8_t`, `uint16_t`)
    and the bitwise operators it applies to them, defined bit by bit on
    natural numbers. Shifts and single-bit masks are written as division and
    remainder by powers of two where they are used. */
module Bits {

  /** `uint8_t`. */
  type byte = x: int | 0 <= x < 0x100

  /** `uint16_t`. */
  type u16 = x: int | 0 <= x < 0x10000

  /** Conversion of an `int` result to `uint8_t`: reduction modulo 2^8. */
  function Wrap8(a: int): (r: byte)
    ensures (r - a) % 0x100 == 0
    ensures 0 <= a < 0x100 ==> r == a
  {
    a % 0x100
  }

  /** Conversion of an `int` result to `uint16_t`: reduction modulo 2^16. */
  function Wrap16(a: int): (r: u16)
    ensures (r - a) % 0x10000 == 0
    ensures 0 <= a < 0x10000 ==> r == a
  {
    a % 0x10000
  }

  function Pow2(k: nat): (p: nat)
    ensures p >= 1
  {
    if k == 0 then 1 else 2 * Pow2(k - 1)
  }

  /** `(a >> k) & 1`: bit k of a. */
  function Bit(a: nat, k: nat): (b: nat)
    ensures b == (a / Pow2(k)) % 2
  {
    if k == 0 then a % 2
    else
      HalveThenDivide(a, Pow2(k - 1));
      Bit(a / 2, k - 1)
  }

  /** Shifting right by one and then by k is shifting right by k + 1. */
  lemma HalveThenDivide(a: nat, p: nat)
    requires p >= 1
    ensures (a / 2) / p == a / (2 * p)
  {
    var q, r := a / (2 * p), a % (2 * p);
    assert a == 2 * p * q + r;
    assert a / 2 == p * q + r / 2;
    DivUnique(a / 2, p, q, r / 2);
  }

  /** Division by p is determined by a quotient and a remainder below p. */
  lemma DivUnique(x: int, p: int, q: int, s: int)
    requires p >= 1 && 0 <= s < p && x == p * q + s
    ensures x / p == q
  {
    var q' := x / p;
    assert x == p * q' + x % p;
    assert p * q' - p * q == p * (q' - q);
    MulSign(p, q' - q);
  }

  /** A non-zero multiple of p is at least p away from 0. */
  lemma {:induction false} MulSign(p: int, t: int)
    requires p >= 1
    ensures t >= 1 ==> p * t >= p
    ensures t <= -1 ==> p * t <= -p
    decreases if t >= 0 then t else -t
  {
    if t > 1 {
      MulSign(p, t - 1);
      assert p * t == p * (t - 1) + p;
    } else if t < -1 {
      MulSign(p, t + 1);
      assert p * t == p * (t + 1) - p;
    }
  }

  /** The bits of `2 * h + d`: d, then the bits of h. */
  lemma BitOfTwice(h: nat, d: nat, k: nat)
    requires d <= 1
    ensures Bit(2 * h + d, k) == if k == 0 then d else Bit(h, k - 1)
  {
    if k > 0 {
      assert (2 * h + d) / 2 == h;
    }
  }

  /** `a & b`: bit k is set exactly when it is set in both. */
  function And(a: nat, b: nat): (r: nat)
    ensures r <= a && r <= b
    ensures forall k :: Bit(r, k) == if Bit(a, k) == 1 && Bit(b, k) == 1 then 1 else 0
  {
    if a == 0 || b == 0 then 0
    else
      var h := And(a / 2, b / 2);
      var d := if a % 2 == 1 && b % 2 == 1 then 1 else 0;
      AndStep(a, b, h, d);
      2 * h + d
  }

  lemma AndStep(a: nat, b: nat, h: nat, d: nat)
    requires d == if a % 2 == 1 && b % 2 == 1 then 1 else 0
    requires forall k :: Bit(h, k) == if Bit(a / 2, k) == 1 && Bit(b / 2, k) == 1 then 1 else 0
    ensures forall k :: Bit(2 * h + d, k) == if Bit(a, k) == 1 && Bit(b, k) == 1 then 1 else 0
  {
    forall k: nat ensures Bit(2 * h + d, k) == if Bit(a, k) == 1 && Bit(b, k) == 1 then 1 else 0 {
      BitOfTwice(h, d, k);
      BitOfTwice(a / 2, a % 2, k);
      BitOfTwice(b / 2, b % 2, k);
    }
  }

  /** `a | b`: bit k is set exactly when it is set in either. */
  function Or(a: nat, b: nat): (r: nat)
    ensures a <= r && b <= r && r <= a + b
    ensures forall k :: Bit(r, k) == if Bit(a, k) == 1 || Bit(b, k) == 1 then 1 else 0
  {
    if a == 0 then b
    else if b == 0 then a
    else
      var h := Or(a / 2, b / 2);
      var d := if a % 2 == 1 || b % 2 == 1 then 1 else 0;
      OrStep(a, b, h, d);
      2 * h + d
  }

  lemma OrStep(a: nat, b: nat, h: nat, d: nat)
    requires d == if a % 2 == 1 || b % 2 == 1 then 1 else 0
    requires forall k :: Bit(h, k) == if Bit(a / 2, k) == 1 || Bit(b / 2, k) == 1 then 1 else 0
    ensures forall k :: Bit(2 * h + d, k) == if Bit(a, k) == 1 || Bit(b, k) == 1 then 1 else 0
  {
    forall k: nat ensures Bit(2 * h + d, k) == if Bit(a, k) == 1 || Bit(b, k) == 1 then 1 else 0 {
      BitOfTwice(h, d, k);
      BitOfTwice(a / 2, a % 2, k);
      BitOfTwice(b / 2, b % 2, k);
    }
  }

  /** `a ^ b`: bit k is set exactly when it differs between the two. */
  function Xor(a: nat, b: nat): (r: nat)
    ensures r <= a + b
    ensures r == 0 <==> a == b
    ensures forall k :: Bit(r, k) == if Bit(a, k) != Bit(b, k) then 1 else 0
  {
    if a == 0 then b
    else if b == 0 then a
    else
      var h := Xor(a / 2, b / 2);
      var d := if a % 2 != b % 2 then 1 else 0;
      XorStep(a, b, h, d);
      2 * h + d
  }

  lemma XorStep(a: nat, b: nat, h: nat, d: nat)
    requires d == if a % 2 != b % 2 then 1 else 0
    requires forall k :: Bit(h, k) == if Bit(a / 2, k) != Bit(b / 2, k) then 1 else 0
    ensures forall k :: Bit(2 * h + d, k) == if Bit(a, k) != Bit(b, k) then 1 else 0
  {
    forall k: nat ensures Bit(2 * h + d, k) == if Bit(a, k) != Bit(b, k) then 1 else 0 {
      BitOfTwice(h, d, k);
      BitOfTwice(a / 2, a % 2, k);
      BitOfTwice(b / 2, b % 2, k);
    }
  }

  /** OR and XOR of two k-bit numbers are k-bit numbers. */
  lemma {:induction false} OrXorBelow(a: nat, b: nat, k: nat)
    requires a < Pow2(k) && b < Pow2(k)
    ensures Or(a, b) < Pow2(k) && Xor(a, b) < Pow2(k)
  {
    if k > 0 && a != 0 && b != 0 {
      OrXorBelow(a / 2, b / 2, k - 1);
    }
  }

  /** The byte-sized instances of the operators. */
  function AndByte(a: byte, b: byte): (r: byte)
    ensures r <= a && r <= b
    ensures forall k :: Bit(r, k) == if Bit(a, k) == 1 && Bit(b, k) == 1 then 1 else 0
  {
    And(a, b)
  }

  function OrByte(a: byte, b: byte): (r: byte)
    ensures a <= r && b <= r
    ensures forall k :: Bit(r, k) == if Bit(a, k) == 1 || Bit(b, k) == 1 then 1 else 0
  {
    assert Pow2(8) == 0x100;
    OrXorBelow(a, b, 8);
    Or(a, b)
  }

  function XorByte(a: byte, b: byte): (r: byte)
    ensures r == 0 <==> a == b
    ensures forall k :: Bit(r, k) == if Bit(a, k) != Bit(b, k) then 1 else 0
  {
    assert Pow2(8) == 0x100;
    OrXorBelow(a, b, 8);
    Xor(a, b)
  }

  /** `(a << k) | b` with b below 2^k is a plain sum: the bits do not overlap. */
  lemma {:induction false} OrDisjoint(a: nat, b: nat, k: nat)
    requires b < Pow2(k)
    ensures Or(a * Pow2(k), b) == a * Pow2(k) + b
  {
    if k > 0 && a != 0 && b != 0 {
      var p := Pow2(k - 1);
      assert a * Pow2(k) == 2 * (a * p);
      OrDisjoint(a, b / 2, k - 1);
    }
  }

  /** Masking is idempotent: `(a & m) & m == a & m`. */
  lemma {:induction false} AndIdempotent(a: nat, m: nat)
    ensures And(And(a, m), m) == And(a, m)
  {
    if a != 0 && m != 0 {
      AndIdempotent(a / 2, m / 2);
    }
  }
}

=== FILE: chip8.dfy ===
/** The interpreter core of src/chip8.cpp: the machine state, the opcode
    handlers `op0` .. `opF`, and `step`, which fetches the word at `pc`,
    decodes it and dispatches on its high nibble.

    Values the handlers obtain from code outside this model (the pressed key,
    the delay timer, the awaited key and `std::rand`) arrive in an `Io`
    record, and the one call that writes to such code (`set_timer`) is
    reported as the step's `Effect`. Conditions under which the program
    aborts (a failed `assert`, `std::exit`, an access outside memory, a
    return with an empty call stack) are `Fatal` outcomes. */
module Chip8 {
  import opened Bits
  import Memory
  import Framebuffer
  import opened Decoder
  import Sprite

  /** Register file, index register, program counter, return-address stack
      (top at the end), memory and framebuffer. */
  datatype Machine = Machine(
    V: seq<byte>,
    I: u16,
    pc: u16,
    stack: seq<u16>,
    mem: seq<byte>,
    fb: seq<bool>)

  /** The fixed sizes: 16 registers, 4096 bytes, 64 * 32 cells. */
  predicate Valid(m: Machine) {
    |m.V| == 16 && Memory.Valid(m.mem) && Framebuffer.Valid(m.fb)
  }

  /** Inputs from collaborators outside the core, one value per step:
      `get_keystate`, `get_timer`, `await_keypress` and `std::rand`. */
  datatype Io = Io(key: byte, delay: byte, awaited: byte, rnd: nat)

  /** A write to a collaborator outside the core. */
  datatype Effect = NoEffect | SetDelay(value: byte)

  datatype Fault =
    | PcOutOfRange(pc: int)   // the `assert` at the top of `step`
    | BadAddress(addr: int)   // memory access at or above 4096
    | StackUnderflow          // `00EE` with no return address
    | Unsupported(raw: u16)   // an unmapped `8XY?`, `EX??` or `FX??`

  datatype Outcome = Ok(next: Machine, effect: Effect) | Fatal(fault: Fault)

  /** The flag register. */
  const VF: int := 0xF

  /** The constructor's state: `I = 0`, `pc = 0x200`, empty call stack, a
      blank framebuffer. The register file is left uninitialised by the
      constructor and the memory image is prepared by the memory unit and the
      program loader, so both are parameters. */
  function Boot(mem: seq<byte>, regs: seq<byte>): (m: Machine)
    requires Memory.Valid(mem) && |regs| == 16
    ensures Valid(m)
    ensures m.pc == Memory.LoadAddr && m.I == 0 && m.stack == []
    ensures Framebuffer.IsBlank(m.fb)
    ensures m.mem == mem && m.V == regs
  {
    Machine(regs, 0, Memory.LoadAddr, [], mem, Framebuffer.Blank())
  }

  function SetReg(m: Machine, x: int, v: byte): (r: Machine)
    requires Valid(m) && 0 <= x < 16
    ensures Valid(r)
  {
    m.(V := m.V[x := v])
  }

  /** `pc += d` on the `uint16_t` program counter. */
  function Advance(m: Machine, d: nat): (r: Machine)
    ensures r == m.(pc := r.pc)
    ensures r.pc == (m.pc as int + d) % 0x10000
    ensures m.pc as int + d < 0x10000 ==> r.pc == m.pc as int + d
  {
    m.(pc := Wrap16(m.pc as int + d))
  }

  /** The common ending of a handler: `pc += 2`, nothing else changes. */
  function Continue(m: Machine): (r: Outcome)
    ensures r.Ok? && r.effect == NoEffect && r.next == m.(pc := r.next.pc)
    ensures r.next.pc == (m.pc as int + 2) % 0x10000
    ensures m.pc as int + 2 < 0x10000 ==> r == Ok(m.(pc := m.pc as int + 2), NoEffect)
  {
    Ok(Advance(m, 2), NoEffect)
  }

  /** A conditional skip: `pc += 4` when taken, `pc += 2` otherwise. */
  function Skip(m: Machine, taken: bool): (r: Outcome)
    ensures r.Ok? && r.effect == NoEffect && r.next == m.(pc := r.next.pc)
    ensures m.pc as int + 4 < 0x10000 ==> r.next.pc == m.pc as int + (if taken then 4 else 2)
    ensures r.next.pc == (m.pc as int + (if taken then 4 else 2)) % 0x10000
  {
    Ok(Advance(m, if taken then 4 else 2), NoEffect)
  }

  /** An instruction as `step` builds it from its raw word. */
  predicate Decoded(ins: Instr) {
    ins == Decode(ins.raw)
  }

  /** `step`. */
  function Step(m: Machine, io: Io): (r: Outcome)
    requires Valid(m)
    ensures r.Ok? ==> Valid(r.next)
    ensures (r.Fatal? && r.fault.PcOutOfRange?) <==> !(Memory.LoadAddr <= m.pc < Memory.Size)
  {
    if !(m.pc < Memory.Size && m.pc >= Memory.LoadAddr) then
      Fatal(PcOutOfRange(m.pc))
    else if !Memory.InBounds(m.pc + 1) then
      Fatal(BadAddress(m.pc + 1))
    else
      var raw := Word(m.mem[m.pc], m.mem[m.pc + 1]);
      if raw == 0 then Continue(m)
      else Execute(m, Decode(raw), io)
  }

  /** The dispatch through the handler table. */
  function Execute(m: Machine, ins: Instr, io: Io): (r: Outcome)
    requires Valid(m) && Decoded(ins)
    ensures r.Ok? ==> Valid(r.next)
    ensures r.Fatal? ==> !r.fault.PcOutOfRange?
    ensures r.Ok? && r.effect.SetDelay? ==> ins.op == 0xF && ins.nn == 0x15
    ensures ins.op == 0x0 ==> r == Op0(m, ins)
    ensures ins.op == 0x8 ==> r == Op8(m, ins)
    ensures ins.op == 0xD ==> r == OpD(m, ins)
    ensures ins.op == 0xE ==> r == OpE(m, ins, io)
    ensures ins.op == 0xF ==> r == OpF(m, ins, io)
  {
    match ins.op
    case 0x0 => Op0(m, ins)
    case 0x1 => Ok(m.(pc := ins.nnn), NoEffect)
    case 0x2 => Ok(m.(stack := m.stack + [m.pc], pc := ins.nnn), NoEffect)
    case 0x3 => Skip(m, m.V[ins.vx] == ins.nn)
    case 0x4 => Skip(m, m.V[ins.vx] != ins.nn)
    case 0x5 => Skip(m, m.V[ins.vx] == m.V[ins.vy])
    case 0x6 => Continue(SetReg(m, ins.vx, ins.nn))
    case 0x7 => Continue(SetReg(m, ins.vx, Wrap8(m.V[ins.vx] as int + ins.nn)))
    case 0x8 => Op8(m, ins)
    case 0x9 => Skip(m, m.V[ins.vx] != m.V[ins.vy])
    case 0xA => Continue(m.(I := ins.nnn))
    case 0xB => Ok(m.(pc := ins.nnn + m.V[0]), NoEffect)
    case 0xC => Continue(SetReg(m, ins.vx, And(io.rnd, ins.nn)))
    case 0xD => OpD(m, ins)
    case 0xE => OpE(m, ins, io)
    case _ => OpF(m, ins, io)
  }

  /** `00E0` clears the screen, `00EE` returns to the address on top of the
      call stack plus 2, and every other `0NNN` is skipped over. */
  function Op0(m: Machine, ins: Instr): (r: Outcome)
    requires Valid(m) && Decoded(ins) && ins.op == 0
    ensures r.Ok? ==> Valid(r.next)
    ensures r.Fatal? ==> !r.fault.PcOutOfRange?
    ensures r.Fatal? <==> ins.raw == 0x00EE && m.stack == []
  {
    if ins.raw == 0x00E0 then
      Continue(m.(fb := Framebuffer.Clear(m.fb)))
    else if ins.raw == 0x00EE then
      if |m.stack| == 0 then Fatal(StackUnderflow)
      else Ok(m.(pc := Wrap16(m.stack[|m.stack| - 1] as int + 2), stack := m.stack[..|m.stack| - 1]), NoEffect)
    else
      Continue(m)
  }

  /** The register-register ALU group `8XY?`, selected by the low nibble.
      In `8XY5`, `8XY6`, `8XY7` and `8XYE`, VF is written before the
      destination, and the destination is computed from the register file as
      it is after that write; `8XY4` writes VX first and VF last. */
  function Op8(m: Machine, ins: Instr): (r: Outcome)
    requires Valid(m) && Decoded(ins) && ins.op == 8
    ensures r.Ok? ==> Valid(r.next)
    ensures r.Fatal? ==> !r.fault.PcOutOfRange?
    ensures r.Fatal? <==> ins.n !in {0, 1, 2, 3, 4, 5, 6, 7, 0xE}
  {
    var x, y := ins.vx, ins.vy;
    var a, b := m.V[x], m.V[y];
    if ins.n == 0 then Continue(SetReg(m, x, b))
    else if ins.n == 1 then Continue(SetReg(m, x, OrByte(a, b)))
    else if ins.n == 2 then Continue(SetReg(m, x, AndByte(a, b)))
    else if ins.n == 3 then Continue(SetReg(m, x, XorByte(a, b)))
    else if ins.n == 4 then
      // `res` is a uint16_t, so `(res >> 16) & 0x1` is 0
      var res := Wrap16(a as int + b);
      Continue(SetReg(SetReg(m, x, res % 0x100), VF, (res / 0x10000) % 2))
    else if ins.n == 5 then
      var m1 := SetReg(m, VF, if a < b then 0 else 1);
      Continue(SetReg(m1, x, Wrap8(m1.V[x] as int - m1.V[y])))
    else if ins.n == 6 then
      var m1 := SetReg(m, VF, a % 2);
      Continue(SetReg(m1, x, m1.V[x] / 2))
    else if ins.n == 7 then
      // the difference is stored in VY
      var m1 := SetReg(m, VF, if b < a then 0 else 1);
      Continue(SetReg(m1, y, Wrap8(m1.V[y] as int - m1.V[x])))
    else if ins.n == 0xE then
      var m1 := SetReg(m, VF, (a / 128) % 2);
      Continue(SetReg(m1, x, Wrap8(m1.V[x] as int * 2)))
    else
      Fatal(Unsupported(ins.raw))
  }

  /** `DXYN`: draws the N-row sprite at I at (VX, VY); VF := collision. */
  function OpD(m: Machine, ins: Instr): (r: Outcome)
    requires Valid(m) && Decoded(ins) && ins.op == 0xD
    ensures r.Ok? ==> Valid(r.next)
    ensures r.Fatal? ==> r.fault.BadAddress?
  {
    match Sprite.Draw(m.fb, m.mem, m.I, m.V[ins.vx], m.V[ins.vy], ins.n)
    case OutOfBounds(a) => Fatal(BadAddress(a))
    case Done(p) => Continue(SetReg(m.(fb := p.fb), VF, if p.collision then 1 else 0))
  }

  /** The key skips `EX9E` and `EXA1`. */
  function OpE(m: Machine, ins: Instr, io: Io): (r: Outcome)
    requires Valid(m) && Decoded(ins) && ins.op == 0xE
    ensures r.Ok? ==> Valid(r.next)
    ensures r.Fatal? ==> !r.fault.PcOutOfRange?
    ensures r.Fatal? <==> ins.nn !in {0x9E, 0xA1}
  {
    if ins.nn == 0x9E then Skip(m, io.key == m.V[ins.vx])
    else if ins.nn == 0xA1 then Skip(m, !(io.key == m.V[ins.vx]))
    else Fatal(Unsupported(ins.raw))
  }

  /** Timer, key, index-register and memory transfer group `FX??`. */
  function OpF(m: Machine, ins: Instr, io: Io): (r: Outcome)
    requires Valid(m) && Decoded(ins) && ins.op == 0xF
    ensures r.Ok? ==> Valid(r.next)
    ensures r.Fatal? ==> !r.fault.PcOutOfRange?
    ensures r.Fatal? && r.fault.Unsupported? <==> ins.nn !in {0x07, 0x0A, 0x15, 0x18, 0x1E, 0x29, 0x33, 0x55, 0x65}
    ensures ins.nn == 0x55 ==> r == StoreBlock(m, ins.vx)
    ensures ins.nn == 0x65 ==> r == LoadBlock(m, ins.vx)
  {
    var x := ins.vx;
    if ins.nn == 0x07 then Continue(SetReg(m, x, io.delay))
    else if ins.nn == 0x0A then Continue(SetReg(m, x, io.awaited))
    else if ins.nn == 0x15 then Ok(Advance(m, 2), SetDelay(m.V[x]))
    else if ins.nn == 0x18 then Continue(m)
    else if ins.nn == 0x1E then
      var res := Wrap16(m.V[x] as int + m.I);
      var m1 := SetReg(m, VF, if res > 0xFFF then 1 else 0);
      Continue(m1.(I := res % 0x1000))
    else if ins.nn == 0x29 then Continue(m.(I := m.V[x] as int * 5))
    else if ins.nn == 0x33 then
      match StoreBcd(m.mem, m.I, m.V[x])
      case OutOfBounds(a) => Fatal(BadAddress(a))
      case Done(mem') => Continue(m.(mem := mem'))
    else if ins.nn == 0x55 then StoreBlock(m, x)
    else if ins.nn == 0x65 then LoadBlock(m, x)
    else
      Fatal(Unsupported(ins.raw))
  }

  /** `FX55`: V0 .. VX stored from I on, then `I = I + X + 1`. */
  function StoreBlock(m: Machine, x: int): (r: Outcome)
    requires Valid(m) && 0 <= x < 16
    ensures r.Ok? ==> Valid(r.next)
    ensures r.Fatal? ==> r.fault.BadAddress?
  {
    match StoreRegs(m.mem, m.V, m.I, 0, x)
    case OutOfBounds(a) => Fatal(BadAddress(a))
    case Done(mem') => Continue(m.(mem := mem', I := Wrap16(m.I + x + 1)))
  }

  /** `FX65`: V0 .. VX loaded from I on, then `I = I + X + 1`. */
  function LoadBlock(m: Machine, x: int): (r: Outcome)
    requires Valid(m) && 0 <= x < 16
    ensures r.Ok? ==> Valid(r.next)
    ensures r.Fatal? ==> r.fault.BadAddress?
  {
    match LoadRegs(m.mem, m.V, m.I, 0, x)
    case OutOfBounds(a) => Fatal(BadAddress(a))
    case Done(regs) => Continue(m.(V := regs, I := Wrap16(m.I + x + 1)))
  }

  /** `FX33`: hundreds, tens and ones digit of `v` written at I, I+1, I+2. */
  function StoreBcd(mem: seq<byte>, base: u16, v: byte): (r: Memory.Access<seq<byte>>)
    requires Memory.Valid(mem)
    ensures r.Done? ==> Memory.Valid(r.value)
    ensures r.Done? <==> base as int + 2 < Memory.Size
    ensures r.OutOfBounds? ==> r.addr == if base >= Memory.Size then base as int else Memory.Size
    ensures r.Done? ==> && r.value[base] == v / 100
                        && r.value[base as int + 1] == (v / 10) % 10
                        && r.value[base as int + 2] == v % 10
    ensures r.Done? ==> forall a :: 0 <= a < Memory.Size && !(base <= a <= base as int + 2) ==> r.value[a] == mem[a]
  {
    var hunds, tens, ones := v / 100, (v % 100) / 10, (v % 100) % 10;
    DecimalDigits(v);
    match Memory.Store(mem, Memory.Addr(base, 0), hunds)
    case OutOfBounds(a) => Memory.OutOfBounds(a)
    case Done(m1) =>
      match Memory.Store(m1, Memory.Addr(base, 1), tens)
      case OutOfBounds(a) => Memory.OutOfBounds(a)
      case Done(m2) => Memory.Store(m2, Memory.Addr(base, 2), ones)
  }

  /** The digits `FX33` computes are the decimal digits of `v`. */
  lemma DecimalDigits(v: byte)
    ensures (v % 100) / 10 == (v / 10) % 10 && (v % 100) % 10 == v % 10
    ensures v / 100 <= 2 && 100 * (v / 100) + 10 * ((v / 10) % 10) + v % 10 == v
  {
  }

  /** The slots of registers `i .. x` are distinct addresses. */
  lemma RegAddrsDistinct(base: u16, k: int, k': int)
    requires 0 <= k < k' < 16
    ensures Memory.Addr(base, k) != Memory.Addr(base, k')
  {
  }

  /** The `FX55` loop from `i` on: `mem[I + k] = V[k]` for k = i .. x. */
  function StoreRegs(mem: seq<byte>, V: seq<byte>, base: u16, i: nat, x: nat): (r: Memory.Access<seq<byte>>)
    requires Memory.Valid(mem) && |V| == 16 && x < 16 && i <= x + 1
    ensures r.Done? <==> forall k :: i <= k <= x ==> Memory.InBounds(Memory.Addr(base, k))
    ensures r.OutOfBounds? ==> !Memory.InBounds(r.addr)
    ensures r.Done? ==> Memory.Valid(r.value)
    ensures r.Done? ==> forall k :: i <= k <= x ==> r.value[Memory.Addr(base, k)] == V[k]
    ensures r.Done? ==> forall a :: 0 <= a < Memory.Size && (forall k :: i <= k <= x ==> a != Memory.Addr(base, k))
                          ==> r.value[a] == mem[a]
    decreases x + 1 - i
  {
    if i == x + 1 then Memory.Done(mem)
    else
      match Memory.Store(mem, Memory.Addr(base, i), V[i])
      case OutOfBounds(a) => Memory.OutOfBounds(a)
      case Done(mem1) =>
        var r := StoreRegs(mem1, V, base, i + 1, x);
        if r.Done? then
          assert forall k :: i < k <= x ==> Memory.Addr(base, i) != Memory.Addr(base, k) by {
            forall k | i < k <= x { RegAddrsDistinct(base, i, k); }
          }
          r
        else r
  }

  /** The `FX65` loop from `i` on: `V[k] = mem[I + k]` for k = i .. x. */
  function LoadRegs(mem: seq<byte>, V: seq<byte>, base: u16, i: nat, x: nat): (r: Memory.Access<seq<byte>>)
    requires Memory.Valid(mem) && |V| == 16 && x < 16 && i <= x + 1
    ensures r.Done? <==> forall k :: i <= k <= x ==> Memory.InBounds(Memory.Addr(base, k))
    ensures r.OutOfBounds? ==> !Memory.InBounds(r.addr)
    ensures r.Done? ==> |r.value| == 16
    ensures r.Done? ==> forall k :: i <= k <= x ==> r.value[k] == mem[Memory.Addr(base, k)]
    ensures r.Done? ==> forall k :: 0 <= k < 16 && !(i <= k <= x) ==> r.value[k] == V[k]
    decreases x + 1 - i
  {
    if i == x + 1 then Memory.Done(V)
    else
      var a := Memory.Addr(base, i);
      if !Memory.InBounds(a) then Memory.OutOfBounds(a)
      else LoadRegs(mem, V[i := mem[a]], base, i + 1, x)
  }
}

=== FILE: chip8_props.dfy ===
/** Properties of `Chip8.Step`, one instruction at a time: what each opcode
    family does to the machine, stated against the machine before the step. */
module Chip8Props {
  import opened Bits
  import Memory
  import Framebuffer
  import opened Decoder
  import Sprite
  import SpriteProps
  import Prototype
  import opened Chip8

  /** A machine whose next fetch reads two bytes inside memory. */
  predicate Runnable(m: Machine) {
    Valid(m) && Memory.LoadAddr <= m.pc < Memory.Size - 1
  }

  /** The instruction `step` fetches and decodes. */
  function Fetched(m: Machine): Instr
    requires Runnable(m)
  {
    Decode(Word(m.mem[m.pc], m.mem[m.pc + 1]))
  }

  /** Fetching is guarded: a `pc` below the load address or past the end of
      memory is fatal, and so is an instruction straddling the end. */
  lemma StepFetchGuard(m: Machine, io: Io)
    requires Valid(m)
    ensures !(Memory.LoadAddr <= m.pc < Memory.Size) ==> Step(m, io) == Fatal(PcOutOfRange(m.pc))
    ensures m.pc == Memory.Size - 1 ==> Step(m, io) == Fatal(BadAddress(Memory.Size))
  {
  }

  /** The all-zero word only advances `pc`: `Continue` moves `pc` on by 2
      and changes nothing else. */
  lemma StepNop(m: Machine, io: Io)
    requires Runnable(m) && Fetched(m).raw == 0
    ensures Step(m, io) == Continue(m)
  {
  }

  /** The prototype's `fetch_instr` over the whole memory and `step` read
      the same word: for a `pc` that `step` accepts, the fetch succeeds
      exactly when both bytes lie in memory, and then yields the word `step`
      decodes; when it fails, `step` is fatal at the address past memory. */
  lemma FetchAgreesWithStep(m: Machine, io: Io, prior: u16)
    requires Valid(m) && Memory.LoadAddr <= m.pc < Memory.Size
    ensures var f := Prototype.FetchInstr(m.mem, Memory.Size, m.pc, prior);
      && (f.status == 0 <==> Runnable(m))
      && (f.status == 0 ==> Runnable(m) && Decode(f.instr) == Fetched(m))
      && (f.status == 1 ==> Step(m, io) == Fatal(BadAddress(Memory.Size)))
  {
    var f := Prototype.FetchInstr(m.mem, Memory.Size, m.pc, prior);
    if f.status == 0 {
      WordBytesRoundTrip(m.mem[m.pc], m.mem[m.pc + 1]);
      assert Bytes(f.instr) == Bytes(Word(m.mem[m.pc], m.mem[m.pc + 1]));
      assert Word(Bytes(f.instr).0, Bytes(f.instr).1) == f.instr;
    }
  }

  /** Any other word is decoded and dispatched on its high nibble. */
  lemma StepDispatch(m: Machine, io: Io)
    requires Runnable(m) && Fetched(m).raw != 0
    ensures Step(m, io) == Execute(m, Fetched(m), io)
  {
  }

  /** The condition under which each conditional skip skips. */
  predicate SkipTaken(m: Machine, ins: Instr, io: Io)
    requires Valid(m) && Decoded(ins)
  {
    match ins.op
    case 0x3 => m.V[ins.vx] == ins.nn
    case 0x4 => m.V[ins.vx] != ins.nn
    case 0x5 => m.V[ins.vx] == m.V[ins.vy]
    case 0x9 => m.V[ins.vx] != m.V[ins.vy]
    case _ => if ins.nn == 0x9E then io.key == m.V[ins.vx] else io.key != m.V[ins.vx]
  }

  predicate IsSkip(ins: Instr) {
    ins.op in {0x3, 0x4, 0x5, 0x9} || (ins.op == 0xE && ins.nn in {0x9E, 0xA1})
  }

  /** `3XNN`, `4XNN`, `5XY0`, `9XY0`, `EX9E`, `EXA1`: `pc` moves on by 4 when
      the condition holds and by 2 otherwise; nothing else changes. */
  lemma SkipFamily(m: Machine, io: Io)
    requires Runnable(m) && IsSkip(Fetched(m))
    ensures Step(m, io) == Ok(m.(pc := m.pc + (if SkipTaken(m, Fetched(m), io) then 4 else 2)), NoEffect)
  {
  }

  /** `2NNN` pushes `pc` and jumps to NNN. */
  lemma Call(m: Machine, io: Io)
    requires Runnable(m) && Fetched(m).op == 2
    ensures Step(m, io) == Ok(m.(pc := Fetched(m).nnn, stack := m.stack + [m.pc]), NoEffect)
  {
  }

  /** A `00EE` at the target of a `2NNN` returns to the instruction after
      the call, with the call stack as before the call. */
  lemma CallThenReturn(m: Machine, io: Io, io': Io)
    requires Runnable(m) && Fetched(m).op == 2
    requires Memory.LoadAddr <= Fetched(m).nnn < Memory.Size - 1
    requires m.mem[Fetched(m).nnn] == 0x00 && m.mem[Fetched(m).nnn + 1] == 0xEE
    ensures var called := m.(pc := Fetched(m).nnn, stack := m.stack + [m.pc]);
      && Step(m, io) == Ok(called, NoEffect)
      && Step(called, io') == Ok(m.(pc := m.pc + 2), NoEffect)
  {
    Call(m, io);
    var called := m.(pc := Fetched(m).nnn, stack := m.stack + [m.pc]);
    assert Word(0x00, 0xEE) == 0x00EE;
    Return(called, io');
    assert called.stack[..|called.stack| - 1] == m.stack;
  }

  /** `00EE` pops the top of the call stack and resumes 2 bytes after it;
      with an empty stack it is fatal. */
  lemma Return(m: Machine, io: Io)
    requires Runnable(m) && Fetched(m).raw == 0x00EE
    ensures m.stack == [] ==> Step(m, io) == Fatal(StackUnderflow)
    ensures m.stack != [] ==>
      Step(m, io) == Ok(m.(pc := Wrap16(m.stack[|m.stack| - 1] as int + 2), stack := m.stack[..|m.stack| - 1]), NoEffect)
  {
  }

  /** `00E0` blanks the framebuffer; any other `0NNN` is skipped over. */
  lemma SystemGroup(m: Machine, io: Io)
    requires Runnable(m) && Fetched(m).op == 0 && Fetched(m).raw != 0 && Fetched(m).raw != 0x00EE
    ensures Step(m, io).Ok? && Step(m, io).effect == NoEffect
    ensures Fetched(m).raw == 0x00E0 ==> Step(m, io).next == m.(pc := m.pc + 2, fb := Step(m, io).next.fb)
    ensures Fetched(m).raw == 0x00E0 ==> Framebuffer.IsBlank(Step(m, io).next.fb)
    ensures Fetched(m).raw != 0x00E0 ==> Step(m, io).next == m.(pc := m.pc + 2)
  {
    Step0(m, io);
  }

  /** `1NNN` and `BNNN` jump without masking the target; `ANNN` loads I. */
  lemma Jumps(m: Machine, io: Io)
    requires Runnable(m) && Fetched(m).op in {0x1, 0xA, 0xB}
    ensures Fetched(m).op == 0x1 ==> Step(m, io) == Ok(m.(pc := Fetched(m).nnn), NoEffect)
    ensures Fetched(m).op == 0xB ==> Step(m, io) == Ok(m.(pc := Fetched(m).nnn + m.V[0]), NoEffect)
    ensures Fetched(m).op == 0xB ==> Step(m, io).next.pc <= 0xFFF + 0xFF
    ensures Fetched(m).op == 0xA ==> Step(m, io) == Ok(m.(I := Fetched(m).nnn, pc := m.pc + 2), NoEffect)
  {
  }

  /** `6XNN` loads NN; `7XNN` adds NN modulo 256 and leaves VF alone (unless
      X is F). */
  lemma Immediates(m: Machine, io: Io)
    requires Runnable(m) && Fetched(m).op in {0x6, 0x7}
    ensures var ins := Fetched(m);
      ins.op == 0x6 ==> Step(m, io) == Ok(m.(V := m.V[ins.vx := ins.nn], pc := m.pc + 2), NoEffect)
    ensures var ins := Fetched(m);
      ins.op == 0x7 ==> Step(m, io) == Ok(m.(V := m.V[ins.vx := (m.V[ins.vx] + ins.nn) % 256], pc := m.pc + 2), NoEffect)
  {
  }

  /** `CXNN`: VX receives the random value masked by NN, so it has no bit
      outside NN. */
  lemma RandomMasked(m: Machine, io: Io)
    requires Runnable(m) && Fetched(m).op == 0xC
    ensures var ins := Fetched(m);
      Step(m, io) == Ok(m.(V := m.V[ins.vx := And(io.rnd, ins.nn)], pc := m.pc + 2), NoEffect)
    ensures var v := Step(m, io).next.V[Fetched(m).vx];
      v <= Fetched(m).nn && And(v, Fetched(m).nn) == v
  {
    AndIdempotent(io.rnd, Fetched(m).nn);
  }

  /** `8XY0` .. `8XY3`: copy, OR, AND, XOR into VX with no flag side effect. */
  lemma AluLogic(m: Machine, io: Io)
    requires Runnable(m) && Fetched(m).op == 8 && Fetched(m).n <= 3
    ensures var ins := Fetched(m);
      var a, b := m.V[ins.vx], m.V[ins.vy];
      var v := if ins.n == 0 then b else if ins.n == 1 then OrByte(a, b)
               else if ins.n == 2 then AndByte(a, b) else XorByte(a, b);
      Step(m, io) == Ok(m.(V := m.V[ins.vx := v], pc := m.pc + 2), NoEffect)
  {
    Step8(m, io);
  }

  /** `8XY4`: VX := VX + VY modulo 256, and VF is always 0: the flag is bit 16
      of a 16-bit value. */
  lemma AddNeverCarries(m: Machine, io: Io)
    requires Runnable(m) && Fetched(m).op == 8 && Fetched(m).n == 4
    ensures var ins := Fetched(m);
      var sum := (m.V[ins.vx] as int + m.V[ins.vy]) % 256;
      Step(m, io) == Ok(m.(V := m.V[ins.vx := sum][VF := 0], pc := m.pc + 2), NoEffect)
  {
    Step8(m, io);
  }

  /** `8XY5`: VF := (VX >= VY), then VX := VX - VY modulo 256, both
      operands read after the flag write. For X and Y other than F these are
      the original VX and VY. */
  lemma Subtract(m: Machine, io: Io)
    requires Runnable(m) && Fetched(m).op == 8 && Fetched(m).n == 5
    ensures var ins := Fetched(m);
      var x, y := ins.vx, ins.vy;
      var V1 := m.V[VF := if m.V[x] >= m.V[y] then 1 else 0];
      Step(m, io) == Ok(m.(V := V1[x := (V1[x] as int - V1[y]) % 256], pc := m.pc + 2), NoEffect)
    ensures var ins := Fetched(m);
      var a, b := m.V[ins.vx], m.V[ins.vy];
      ins.vx != VF && ins.vy != VF ==>
        Step(m, io) == Ok(m.(V := m.V[VF := if a >= b then 1 else 0][ins.vx := (a as int - b) % 256], pc := m.pc + 2), NoEffect)
  {
    Step8(m, io);
  }

  /** `8XY7` stores its difference in VY: VF := (VY >= VX), then
      VY := VY - VX modulo 256, both operands read after the flag write. For
      X and Y other than F, VX is left alone. */
  lemma SubtractReverse(m: Machine, io: Io)
    requires Runnable(m) && Fetched(m).op == 8 && Fetched(m).n == 7
    ensures var ins := Fetched(m);
      var x, y := ins.vx, ins.vy;
      var V1 := m.V[VF := if m.V[y] >= m.V[x] then 1 else 0];
      Step(m, io) == Ok(m.(V := V1[y := (V1[y] as int - V1[x]) % 256], pc := m.pc + 2), NoEffect)
    ensures var ins := Fetched(m);
      var a, b := m.V[ins.vx], m.V[ins.vy];
      ins.vx != VF && ins.vy != VF ==>
        Step(m, io) == Ok(m.(V := m.V[VF := if b >= a then 1 else 0][ins.vy := (b as int - a) % 256], pc := m.pc + 2), NoEffect)
  {
    Step8(m, io);
  }

  /** `8XY6`: VF := the low bit of VX, then VX := VX >> 1, VX read after the
      flag write. For X other than F the old VX is recovered as
      2 * VX + VF and the other registers are kept. */
  lemma ShiftRight(m: Machine, io: Io)
    requires Runnable(m) && Fetched(m).op == 8 && Fetched(m).n == 6
    ensures var x := Fetched(m).vx;
      var V1 := m.V[VF := m.V[x] % 2];
      Step(m, io) == Ok(m.(V := V1[x := V1[x] / 2], pc := m.pc + 2), NoEffect)
    ensures var x, r := Fetched(m).vx, Step(m, io);
      x != VF ==>
        && r.Ok? && r.next.pc == m.pc + 2 && r.next.V[VF] <= 1
        && 2 * r.next.V[x] + r.next.V[VF] == m.V[x]
        && r.next == m.(V := r.next.V, pc := m.pc + 2)
        && forall k :: 0 <= k < 16 && k != x && k != VF ==> r.next.V[k] == m.V[k]
  {
    Step8(m, io);
  }

  /** `8XYE`: VF := the high bit of VX, then VX := VX << 1 modulo 256, VX
      read after the flag write. For X other than F the old VX is recovered
      as VX / 2 + 128 * VF and the other registers are kept. */
  lemma ShiftLeft(m: Machine, io: Io)
    requires Runnable(m) && Fetched(m).op == 8 && Fetched(m).n == 0xE
    ensures var x := Fetched(m).vx;
      var V1 := m.V[VF := m.V[x] / 128];
      Step(m, io) == Ok(m.(V := V1[x := (V1[x] as int * 2) % 256], pc := m.pc + 2), NoEffect)
    ensures var x, r := Fetched(m).vx, Step(m, io);
      x != VF ==>
        && r.Ok? && r.next.pc == m.pc + 2 && r.next.V[VF] <= 1
        && r.next.V[x] / 2 + 128 * r.next.V[VF] == m.V[x]
        && r.next.V[x] % 2 == 0
        && r.next == m.(V := r.next.V, pc := m.pc + 2)
        && forall k :: 0 <= k < 16 && k != x && k != VF ==> r.next.V[k] == m.V[k]
  {
    Step8(m, io);
  }

  /** With X = F, the flag `8XY5`, `8XY6` and `8XYE` write first is
      overwritten by the result, which is computed from the flag itself. */
  lemma FlagOverwritten(m: Machine, io: Io)
    requires Runnable(m) && Fetched(m).op == 8 && Fetched(m).vx == VF
    ensures var ins := Fetched(m);
      var a, b := m.V[VF], m.V[ins.vy];
      var flag := if a < b then 0 else 1;
      ins.n == 5 ==> Step(m, io).next.V[VF] == (flag - (if ins.vy == VF then flag else b as int)) % 256
    ensures Fetched(m).n == 6 ==> Step(m, io).next.V[VF] == 0
    ensures Fetched(m).n == 0xE ==> Step(m, io).next.V[VF] == 2 * (m.V[VF] / 128)
  {
    Step8(m, io);
  }

  /** `8XY7` with Y = F overwrites the flag with the difference computed
      from it; with X = F the freshly written flag is what VY loses. */
  lemma FlagOverwrittenReverse(m: Machine, io: Io)
    requires Runnable(m) && Fetched(m).op == 8 && Fetched(m).n == 7
    requires Fetched(m).vx == VF || Fetched(m).vy == VF
    ensures var ins := Fetched(m);
      var a, b := m.V[ins.vx], m.V[ins.vy];
      var flag := if b < a then 0 else 1;
      ins.vy == VF ==> Step(m, io).next.V[VF] == (flag - (if ins.vx == VF then flag else a as int)) % 256
    ensures var ins := Fetched(m);
      var a, b := m.V[ins.vx], m.V[ins.vy];
      var flag := if b < a then 0 else 1;
      ins.vx == VF && ins.vy != VF ==>
        Step(m, io).next.V[VF] == flag && Step(m, io).next.V[ins.vy] == (b as int - flag) % 256
  {
    Step8(m, io);
  }

  /** An `8XY?` whose low nibble has no handler is fatal. */
  lemma AluUnsupported(m: Machine, io: Io)
    requires Runnable(m) && Fetched(m).op == 8 && Fetched(m).n in {8, 9, 0xA, 0xB, 0xC, 0xD, 0xF}
    ensures Step(m, io) == Fatal(Unsupported(Fetched(m).raw))
  {
    Step8(m, io);
  }

  /** `EX??` and `FX??` with an unmapped low byte are fatal. */
  lemma KeyAndMiscUnsupported(m: Machine, io: Io)
    requires Runnable(m)
    requires || (Fetched(m).op == 0xE && Fetched(m).nn !in {0x9E, 0xA1})
             || (Fetched(m).op == 0xF && Fetched(m).nn !in {0x07, 0x0A, 0x15, 0x18, 0x1E, 0x29, 0x33, 0x55, 0x65})
    ensures Step(m, io) == Fatal(Unsupported(Fetched(m).raw))
  {
  }

  /** `FX07`, `FX0A`, `FX15`, `FX18`: the delay timer and the awaited key are
      read into VX, VX is handed to the delay timer, and `FX18` does nothing. */
  lemma TimerAndKey(m: Machine, io: Io)
    requires Runnable(m) && Fetched(m).op == 0xF && Fetched(m).nn in {0x07, 0x0A, 0x15, 0x18}
    ensures var ins := Fetched(m);
      ins.nn == 0x07 ==> Step(m, io) == Ok(m.(V := m.V[ins.vx := io.delay], pc := m.pc + 2), NoEffect)
    ensures var ins := Fetched(m);
      ins.nn == 0x0A ==> Step(m, io) == Ok(m.(V := m.V[ins.vx := io.awaited], pc := m.pc + 2), NoEffect)
    ensures var ins := Fetched(m);
      ins.nn == 0x15 ==> Step(m, io) == Ok(m.(pc := m.pc + 2), SetDelay(m.V[ins.vx]))
    ensures Fetched(m).nn == 0x18 ==> Step(m, io) == Ok(m.(pc := m.pc + 2), NoEffect)
  {
  }

  /** `FX1E`: the 16-bit sum I + VX sets VF when it exceeds 0xFFF and is
      masked to 12 bits. From a 12-bit I nothing is lost: the flag is the
      carry out of bit 11. */
  lemma AddToIndex(m: Machine, io: Io)
    requires Runnable(m) && Fetched(m).op == 0xF && Fetched(m).nn == 0x1E
    ensures var ins, r := Fetched(m), Step(m, io);
      var sum := (m.I + m.V[ins.vx]) % 0x10000;
      r.Ok? && r.next.I == sum % 0x1000 && r.next.V[VF] == (if sum > 0xFFF then 1 else 0)
      && r.next == m.(V := m.V[VF := r.next.V[VF]], I := r.next.I, pc := m.pc + 2)
    ensures m.I < 0x1000 ==>
      Step(m, io).next.V[VF] * 0x1000 + Step(m, io).next.I == m.I + m.V[Fetched(m).vx]
  {
  }

  /** `FX29`: I := 5 * VX, the address of glyph VX when VX is a hex digit. */
  lemma FontGlyph(m: Machine, io: Io)
    requires Runnable(m) && Fetched(m).op == 0xF && Fetched(m).nn == 0x29
    ensures Step(m, io) == Ok(m.(I := 5 * m.V[Fetched(m).vx] as int, pc := m.pc + 2), NoEffect)
    ensures Step(m, io).next.I % 5 == 0 && Step(m, io).next.I < 5 * 256
  {
  }

  /** A fetched `DXYN` goes to `opD`. */
  lemma StepD(m: Machine, io: Io)
    requires Runnable(m) && Fetched(m).op == 0xD
    ensures Step(m, io) == OpD(m, Fetched(m))
  {
    StepDispatch(m, io);
  }

  /** A fetched `FX??` goes to `opF`. */
  lemma StepF(m: Machine, io: Io)
    requires Runnable(m) && Fetched(m).op == 0xF
    ensures Step(m, io) == OpF(m, Fetched(m), io)
  {
    StepDispatch(m, io);
  }

  /** A fetched `0NNN` other than the zero word goes to `op0`. */
  lemma Step0(m: Machine, io: Io)
    requires Runnable(m) && Fetched(m).op == 0 && Fetched(m).raw != 0
    ensures Step(m, io) == Op0(m, Fetched(m))
  {
    StepDispatch(m, io);
  }

  /** A fetched `8XY?` goes to `op8`. */
  lemma Step8(m: Machine, io: Io)
    requires Runnable(m) && Fetched(m).op == 8
    ensures Step(m, io) == Op8(m, Fetched(m))
  {
    StepDispatch(m, io);
  }

  /** `DXYN`: fatal at a sprite row outside memory; otherwise the
      framebuffer has exactly the sprite's lit cells toggled, VF tells
      whether one of them was lit before, and nothing else but `pc` changes. */
  lemma DrawSprite(m: Machine, io: Io)
    requires Runnable(m) && Fetched(m).op == 0xD
    ensures var n, r := Fetched(m).n, Step(m, io);
      r.Ok? <==> forall i :: 0 <= i < n ==> Memory.InBounds(Memory.Addr(m.I, i))
    ensures Step(m, io).Fatal? ==>
      Step(m, io).fault.BadAddress? && !Memory.InBounds(Step(m, io).fault.addr)
    ensures var ins, r := Fetched(m), Step(m, io);
      r.Ok? ==>
        var rows := Sprite.ReadRows(m.mem, m.I, 0, ins.n).value;
        var cells := SpriteProps.SpriteCells(m.V[ins.vx], m.V[ins.vy], rows, 0);
        && r.effect == NoEffect
        && r.next == m.(fb := r.next.fb, V := m.V[VF := r.next.V[VF]], pc := m.pc + 2)
        && SpriteProps.Toggled(m.fb, cells, r.next.fb)
        && r.next.V[VF] == (if SpriteProps.HitsLit(m.fb, cells) then 1 else 0)
  {
    StepD(m, io);
    DrawSpriteOp(m, Fetched(m));
  }

  /** `DXYN` at the handler. */
  lemma DrawSpriteOp(m: Machine, ins: Instr)
    requires Valid(m) && Decoded(ins) && ins.op == 0xD && m.pc as int + 2 < 0x10000
    ensures var r := OpD(m, ins);
      r.Ok? <==> forall i :: 0 <= i < ins.n ==> Memory.InBounds(Memory.Addr(m.I, i))
    ensures OpD(m, ins).Fatal? ==>
      OpD(m, ins).fault.BadAddress? && !Memory.InBounds(OpD(m, ins).fault.addr)
    ensures var r := OpD(m, ins);
      r.Ok? ==>
        var rows := Sprite.ReadRows(m.mem, m.I, 0, ins.n).value;
        var cells := SpriteProps.SpriteCells(m.V[ins.vx], m.V[ins.vy], rows, 0);
        && r.effect == NoEffect
        && r.next == m.(fb := r.next.fb, V := m.V[VF := r.next.V[VF]], pc := m.pc + 2)
        && SpriteProps.Toggled(m.fb, cells, r.next.fb)
        && r.next.V[VF] == (if SpriteProps.HitsLit(m.fb, cells) then 1 else 0)
  {
    if forall i :: 0 <= i < ins.n ==> Memory.InBounds(Memory.Addr(m.I, i)) {
      SpriteProps.DrawEffect(m.fb, m.mem, m.I, m.V[ins.vx], m.V[ins.vy], ins.n);
    }
  }

  /** `FX33`: the hundreds, tens and ones digits of VX go to I, I+1 and I+2
      and nothing else in memory changes; fatal at the first of the three
      addresses outside memory. */
  lemma StoreDecimal(m: Machine, io: Io)
    requires Runnable(m) && Fetched(m).op == 0xF && Fetched(m).nn == 0x33
    ensures Step(m, io).Ok? <==> m.I as int + 2 < Memory.Size
    ensures Step(m, io).Fatal? ==>
      Step(m, io).fault == BadAddress(if m.I >= Memory.Size then m.I as int else Memory.Size)
    ensures var v, r := m.V[Fetched(m).vx], Step(m, io);
      r.Ok? ==>
        var h, t, o := r.next.mem[m.I], r.next.mem[m.I as int + 1], r.next.mem[m.I as int + 2];
        && r.effect == NoEffect
        && r.next == m.(mem := r.next.mem, pc := m.pc + 2)
        && h <= 2 && t <= 9 && o <= 9 && 100 * h + 10 * t + o == v
        && forall a :: 0 <= a < Memory.Size && !(m.I <= a <= m.I as int + 2) ==> r.next.mem[a] == m.mem[a]
  {
    StepF(m, io);
  }

  /** `FX55`: V0 .. VX are stored at I .. I+X, nothing else in memory
      changes, and I moves past them; fatal when the block does not fit. */
  lemma StoreRegisters(m: Machine, io: Io)
    requires Runnable(m) && Fetched(m).op == 0xF && Fetched(m).nn == 0x55
    ensures Step(m, io).Ok? <==> m.I as int + Fetched(m).vx < Memory.Size
    ensures Step(m, io).Fatal? ==>
      Step(m, io).fault.BadAddress? && !Memory.InBounds(Step(m, io).fault.addr)
    ensures var x, r := Fetched(m).vx, Step(m, io);
      r.Ok? ==>
        && r.effect == NoEffect
        && r.next == m.(mem := r.next.mem, I := m.I as int + x + 1, pc := m.pc + 2)
        && (forall k :: 0 <= k <= x ==> r.next.mem[m.I as int + k] == m.V[k])
        && forall a :: 0 <= a < Memory.Size && !(m.I <= a <= m.I as int + x) ==> r.next.mem[a] == m.mem[a]
  {
    StepF(m, io);
    StoreBlockEffect(m, Fetched(m).vx);
  }

  /** `FX55` after dispatch. */
  lemma StoreBlockEffect(m: Machine, x: int)
    requires Valid(m) && 0 <= x < 16 && m.pc as int + 2 < 0x10000
    ensures StoreBlock(m, x).Ok? <==> m.I as int + x < Memory.Size
    ensures StoreBlock(m, x).Fatal? ==> !Memory.InBounds(StoreBlock(m, x).fault.addr)
    ensures var r := StoreBlock(m, x);
      r.Ok? ==>
        && r.effect == NoEffect
        && r.next == m.(mem := r.next.mem, I := m.I as int + x + 1, pc := m.pc + 2)
        && (forall k :: 0 <= k <= x ==> r.next.mem[m.I as int + k] == m.V[k])
        && forall a :: 0 <= a < Memory.Size && !(m.I <= a <= m.I as int + x) ==> r.next.mem[a] == m.mem[a]
  {
    BlockFits(m.I, x);
    if m.I as int + x < Memory.Size {
      StoreBlockFits(m, x);
    } else {
      assert StoreRegs(m.mem, m.V, m.I, 0, x).OutOfBounds?;
    }
  }

  /** `FX55` with the block inside memory: the outcome is the stored block. */
  lemma StoreBlockFits(m: Machine, x: int)
    requires Valid(m) && 0 <= x < 16 && m.pc as int + 2 < 0x10000 && m.I as int + x < Memory.Size
    ensures var mem' := StoreRegs(m.mem, m.V, m.I, 0, x);
      && mem'.Done?
      && StoreBlock(m, x) == Ok(m.(mem := mem'.value, I := m.I as int + x + 1, pc := m.pc + 2), NoEffect)
      && (forall k :: 0 <= k <= x ==> mem'.value[m.I as int + k] == m.V[k])
      && forall a :: 0 <= a < Memory.Size && !(m.I <= a <= m.I as int + x) ==> mem'.value[a] == m.mem[a]
  {
    StoreRegsBlock(m.mem, m.V, m.I, x);
  }

  /** The `FX55` loop over a block inside memory: V0 .. VX land at
      I .. I+X and every other byte is kept. */
  lemma StoreRegsBlock(mem: seq<byte>, V: seq<byte>, base: u16, x: nat)
    requires Memory.Valid(mem) && |V| == 16 && x < 16 && base as int + x < Memory.Size
    ensures var r := StoreRegs(mem, V, base, 0, x);
      && r.Done?
      && (forall k :: 0 <= k <= x ==> r.value[base as int + k] == V[k])
      && forall a :: 0 <= a < Memory.Size && !(base <= a <= base as int + x) ==> r.value[a] == mem[a]
  {
    BlockFits(base, x);
    assert forall k :: 0 <= k <= x ==> Memory.Addr(base, k) == base as int + k;
  }

  /** `FX65`: V0 .. VX are loaded from I .. I+X, the other registers are
      kept, and I moves past the block; fatal when the block does not fit. */
  lemma LoadRegisters(m: Machine, io: Io)
    requires Runnable(m) && Fetched(m).op == 0xF && Fetched(m).nn == 0x65
    ensures Step(m, io).Ok? <==> m.I as int + Fetched(m).vx < Memory.Size
    ensures Step(m, io).Fatal? ==>
      Step(m, io).fault.BadAddress? && !Memory.InBounds(Step(m, io).fault.addr)
    ensures var x, r := Fetched(m).vx, Step(m, io);
      r.Ok? ==>
        && r.effect == NoEffect
        && r.next == m.(V := r.next.V, I := m.I as int + x + 1, pc := m.pc + 2)
        && (forall k :: 0 <= k <= x ==> r.next.V[k] == m.mem[m.I as int + k])
        && forall k :: x < k < 16 ==> r.next.V[k] == m.V[k]
  {
    StepF(m, io);
    LoadBlockEffect(m, Fetched(m).vx);
  }

  /** `FX65` after dispatch. */
  lemma LoadBlockEffect(m: Machine, x: int)
    requires Valid(m) && 0 <= x < 16 && m.pc as int + 2 < 0x10000
    ensures LoadBlock(m, x).Ok? <==> m.I as int + x < Memory.Size
    ensures LoadBlock(m, x).Fatal? ==> !Memory.InBounds(LoadBlock(m, x).fault.addr)
    ensures var r := LoadBlock(m, x);
      r.Ok? ==>
        && r.effect == NoEffect
        && r.next == m.(V := r.next.V, I := m.I as int + x + 1, pc := m.pc + 2)
        && (forall k :: 0 <= k <= x ==> r.next.V[k] == m.mem[m.I as int + k])
        && forall k :: x < k < 16 ==> r.next.V[k] == m.V[k]
  {
    BlockFits(m.I, x);
    if m.I as int + x < Memory.Size {
      LoadBlockFits(m, x);
    } else {
      assert LoadRegs(m.mem, m.V, m.I, 0, x).OutOfBounds?;
    }
  }

  /** `FX65` with the block inside memory: the outcome is the loaded block. */
  lemma LoadBlockFits(m: Machine, x: int)
    requires Valid(m) && 0 <= x < 16 && m.pc as int + 2 < 0x10000 && m.I as int + x < Memory.Size
    ensures var regs := LoadRegs(m.mem, m.V, m.I, 0, x);
      && regs.Done?
      && LoadBlock(m, x) == Ok(m.(V := regs.value, I := m.I as int + x + 1, pc := m.pc + 2), NoEffect)
      && (forall k :: 0 <= k <= x ==> regs.value[k] == m.mem[m.I as int + k])
      && forall k :: x < k < 16 ==> regs.value[k] == m.V[k]
  {
    LoadRegsBlock(m.mem, m.V, m.I, x);
  }

  /** The `FX65` loop over a block inside memory: V0 .. VX come from
      I .. I+X and the other registers are kept. */
  lemma LoadRegsBlock(mem: seq<byte>, V: seq<byte>, base: u16, x: nat)
    requires Memory.Valid(mem) && |V| == 16 && x < 16 && base as int + x < Memory.Size
    ensures var r := LoadRegs(mem, V, base, 0, x);
      && r.Done?
      && (forall k :: 0 <= k <= x ==> r.value[k] == mem[base as int + k])
      && forall k :: x < k < 16 ==> r.value[k] == V[k]
  {
    BlockFits(base, x);
    assert forall k :: 0 <= k <= x ==> Memory.Addr(base, k) == base as int + k;
  }

  /** The register block `I .. I+x` lies in memory exactly when its last
      address does; past 0xFFFF the addresses wrap, but then I itself is
      already outside memory. */
  lemma BlockFits(base: u16, x: int)
    requires 0 <= x < 16
    ensures (forall k :: 0 <= k <= x ==> Memory.InBounds(Memory.Addr(base, k))) <==> base as int + x < Memory.Size
  {
    if base as int + x >= Memory.Size {
      if base as int + x < 0x10000 {
        assert !Memory.InBounds(Memory.Addr(base, x));
      } else {
        assert !Memory.InBounds(Memory.Addr(base, 0));
      }
    }
  }

  /** Storing V0 .. VX with `FX55` and loading them back from the same I with
      `FX65` restores the register file and leaves memory as stored. */
  lemma SaveThenLoad(m: Machine, x: int)
    requires Valid(m) && m.pc < Memory.Size && 0 <= x < 16 && m.I as int + x < Memory.Size
    ensures var s := StoreBlock(m, x);
      && s.Ok?
      && var l := LoadBlock(s.next.(I := m.I), x);
      && l.Ok?
      && l.next.V == m.V
      && l.next.mem == s.next.mem
  {
    var s := StoreBlock(m, x);
    StoreBlockEffect(m, x);
    var m1 := s.next.(I := m.I);
    LoadBlockEffect(m1, x);
    var l := LoadBlock(m1, x);
    assert forall k :: 0 <= k < 16 ==> l.next.V[k] == m.V[k];
  }
}

=== FILE: decode.dfy ===
/** Instruction fetch and decode of `Chip8::step` (src/chip8.cpp): two memory
    bytes form a big-endian 16-bit word, which is split by shift and mask into
    the fields the opcode handlers use. */
module Decoder {
  import opened Bits

  /** A decoded instruction word, with the fields of the `Instr` record the
      handlers read. */
  datatype Instr = Instr(raw: u16, op: int, vx: int, vy: int, n: int, nn: int, nnn: int)

  /** `(hi << 8) | lo`: the big-endian word made of two bytes. Splitting the
      word gives the two bytes back. */
  function Word(hi: byte, lo: byte): (w: u16)
    ensures w / 256 == hi as int && w % 256 == lo as int
  {
    hi as int * 256 + lo as int
  }

  /** `Word` is the shift-and-OR the source writes. */
  lemma WordIsShiftOr(hi: byte, lo: byte)
    ensures Word(hi, lo) == Or(hi as int * 256, lo)
  {
    assert Pow2(8) == 256;
    OrDisjoint(hi, lo, 8);
  }

  /** The word's bytes, high byte first; inverse of `Word`. */
  function Bytes(w: u16): (b: (byte, byte))
    ensures Word(b.0, b.1) == w
  {
    (w / 256, w % 256)
  }

  lemma {:induction false} WordBytesRoundTrip(hi: byte, lo: byte)
    ensures Bytes(Word(hi, lo)) == (hi, lo)
  {
  }

  /** Nibble and byte fields of a word. Every field is in range, and the
      fields put back together give the word again. */
  function Decode(w: u16): (ins: Instr)
    ensures ins.raw == w
    ensures 0 <= ins.op < 16 && 0 <= ins.vx < 16 && 0 <= ins.vy < 16 && 0 <= ins.n < 16
    ensures ins.nn == ins.vy * 16 + ins.n && ins.nnn == ins.vx * 256 + ins.nn
    ensures w == ins.op * 0x1000 + ins.nnn
  {
    NibbleFacts(w);
    Instr(w, (w / 0x1000) % 16, (w / 0x100) % 16, (w / 0x10) % 16, w % 16, w % 0x100, w % 0x1000)
  }

  /** How the shift-and-mask fields of a word fit together. */
  lemma NibbleFacts(w: u16)
    ensures var a, b, c, d := (w / 0x1000) % 16, (w / 0x100) % 16, (w / 0x10) % 16, w % 16;
      && 0 <= a < 16 && 0 <= b < 16 && 0 <= c < 16 && 0 <= d < 16
      && w % 0x100 == c * 16 + d && w % 0x1000 == b * 256 + c * 16 + d
      && w == a * 0x1000 + b * 0x100 + c * 0x10 + d
  {
    var a := w / 0x1000;
    var r := w % 0x1000;
    var b := r / 0x100;
    var r2 := r % 0x100;
    var c := r2 / 0x10;
    assert a < 16 && a % 16 == a;
    assert w / 0x100 == a * 16 + b;
    assert (a * 16 + b) % 16 == b;
    assert w / 0x10 == a * 256 + b * 16 + c;
    assert (a * 256 + b * 16 + c) % 16 == c;
  }

  /** The word with the given four nibbles, most significant first. */
  function Assemble(op: int, vx: int, vy: int, n: int): (w: u16)
    requires 0 <= op < 16 && 0 <= vx < 16 && 0 <= vy < 16 && 0 <= n < 16
  {
    op * 0x1000 + vx * 0x100 + vy * 0x10 + n
  }

  /** Decoding an assembled word gives back its four nibbles. */
  lemma {:induction false} DecodeAssemble(op: int, vx: int, vy: int, n: int)
    requires 0 <= op < 16 && 0 <= vx < 16 && 0 <= vy < 16 && 0 <= n < 16
    ensures var ins := Decode(Assemble(op, vx, vy, n));
      ins.op == op && ins.vx == vx && ins.vy == vy && ins.n == n
      && ins.nn == vy * 16 + n && ins.nnn == vx * 256 + vy * 16 + n
  {
    var ins := Decode(Assemble(op, vx, vy, n));
    NibblesUnique(op, vx, vy, n, ins.op, ins.vx, ins.vy, ins.n);
  }

  /** Four nibbles are determined by the word they form. */
  lemma NibblesUnique(a: int, b: int, c: int, d: int, a': int, b': int, c': int, d': int)
    requires 0 <= a < 16 && 0 <= b < 16 && 0 <= c < 16 && 0 <= d < 16
    requires 0 <= a' < 16 && 0 <= b' < 16 && 0 <= c' < 16 && 0 <= d' < 16
    requires a * 0x1000 + b * 0x100 + c * 0x10 + d == a' * 0x1000 + b' * 0x100 + c' * 0x10 + d'
    ensures a == a' && b == b' && c == c' && d == d'
  {
  }

  /** Decoding the word fetched from two bytes: the opcode and X are the
      nibbles of the first byte, the low byte is the second byte. */
  lemma {:induction false} DecodeWord(hi: byte, lo: byte)
    ensures var ins := Decode(Word(hi, lo));
      ins.op == hi as int / 16 && ins.vx == hi as int % 16 && ins.nn == lo as int
      && ins.vy == lo as int / 16 && ins.n == lo as int % 16
  {
    var w := Word(hi, lo);
    var ins := Decode(w);
    NibblesUnique(ins.op, ins.vx, ins.vy, ins.n, hi as int / 16, hi as int % 16, lo as int / 16, lo as int % 16);
  }
}

=== FILE: framebuffer.dfy ===
/** The peripherals' framebuffer (src/periphs.cpp): a flat buffer of
    `Width * Height` one-bit cells. Cell `(x, y)` lives at `x * Height + y`;
    a position past the end of the buffer is ignored rather than wrapped. */
module Framebuffer {
  import opened Bits

  const Width: int := 64
  const Height: int := 32

  /** Number of cells: 64 * 32. */
  const Cells: int := 2048

  predicate Valid(fb: seq<bool>) {
    |fb| == Cells
  }

  predicate IsBlank(fb: seq<bool>) {
    forall c :: 0 <= c < |fb| ==> !fb[c]
  }

  /** The buffer the constructor allocates: every cell 0. */
  function Blank(): (fb: seq<bool>)
    ensures |fb| == Width * Height
    ensures IsBlank(fb)
  {
    seq(Cells, _ => false)
  }

  /** `clear_screen`, buffer part: every cell 0, size unchanged. */
  function Clear(fb: seq<bool>): (r: seq<bool>)
    requires Valid(fb)
    ensures |r| == |fb|
    ensures IsBlank(r)
  {
    Blank()
  }

  /** Buffer index of the cell at column `x`, row `y`; coordinates are
      `uint8_t`, so the index can reach 255 * 32 + 255. */
  function Pos(x: byte, y: byte): (pos: nat)
    ensures y < Height ==> pos / Height == x && pos % Height == y
  {
    x * Height + y
  }

  /** Result of one plot: the new buffer and whether a set pixel was hit. */
  datatype Plot = Plot(fb: seq<bool>, collision: bool)

  /** `place_pixel(x, y, pixval)`. */
  function PlacePixel(fb: seq<bool>, x: byte, y: byte, pixval: byte): (r: Plot)
    requires Valid(fb)
    ensures Valid(r.fb)
    ensures Pos(x, y) >= Cells ==> r == Plot(fb, false)
    ensures Pos(x, y) < Cells ==> r.collision == (fb[Pos(x, y)] && pixval != 0)
    ensures Pos(x, y) < Cells && pixval <= 1 ==> r.fb[Pos(x, y)] == (fb[Pos(x, y)] != (pixval == 1))
    ensures forall c :: 0 <= c < Cells && c != Pos(x, y) ==> r.fb[c] == fb[c]
  {
    var pos := Pos(x, y);
    if pos >= |fb| then
      Plot(fb, false)
    else
      var cur: byte := if fb[pos] then 1 else 0;
      var col: byte := if XorByte(cur, pixval) != 0 then 0xFF else 0x00;
      Plot(fb[pos := col != 0], fb[pos] && pixval != 0)
  }

  /** Plotting the same 0/1 value at the same place twice restores the buffer. */
  lemma PlaceTwiceRestores(fb: seq<bool>, x: byte, y: byte, pixval: byte)
    requires Valid(fb) && pixval <= 1
    ensures PlacePixel(PlacePixel(fb, x, y, pixval).fb, x, y, pixval).fb == fb
  {
    var once := PlacePixel(fb, x, y, pixval).fb;
    var twice := PlacePixel(once, x, y, pixval).fb;
    assert forall c :: 0 <= c < Cells ==> twice[c] == fb[c];
  }

  /** On a blank buffer the first plot never collides, and the second plot
      at the same place collides exactly when a 1 was plotted on screen. */
  lemma PlaceTwiceOnBlank(fb: seq<bool>, x: byte, y: byte, pixval: byte)
    requires Valid(fb) && IsBlank(fb) && pixval <= 1
    ensures !PlacePixel(fb, x, y, pixval).collision
    ensures PlacePixel(PlacePixel(fb, x, y, pixval).fb, x, y, pixval).collision
            == (pixval == 1 && Pos(x, y) < Cells)
  {
  }

  /** Plotting a 0 never changes the buffer and never collides. */
  lemma PlaceZeroIsIdentity(fb: seq<bool>, x: byte, y: byte)
    requires Valid(fb)
    ensures PlacePixel(fb, x, y, 0) == Plot(fb, false)
  {
    var r := PlacePixel(fb, x, y, 0);
    assert forall c :: 0 <= c < Cells ==> r.fb[c] == fb[c];
  }

  /** Columns at or beyond the right edge are clipped, not wrapped. */
  lemma OffScreenIsClipped(fb: seq<bool>, x: byte, y: byte, pixval: byte)
    requires Valid(fb) && x >= Width
    ensures PlacePixel(fb, x, y, pixval) == Plot(fb, false)
  {
  }

  /** A row past the bottom edge is not wrapped either: it lands in the next
      column, on the same cell as `(x + 1, y - Height)`. */
  lemma RowOverflowBleeds(fb: seq<bool>, x: byte, y: byte, pixval: byte)
    requires Valid(fb) && x + 1 < 256 && Height <= y < 2 * Height
    ensures PlacePixel(fb, x, y, pixval) == PlacePixel(fb, x + 1, y - Height, pixval)
  {
  }
}

=== FILE: memory.dfy ===
/** The interpreter's 4 KiB byte memory (include/mem.h declares a 4096-byte array).
    Addresses reach the memory unit as `uint16_t`, so an address computed in
    `int` arithmetic is first truncated to 16 bits; an address at or above
    `Size` is out of bounds. */
module Memory {
  import opened Bits

  /** Number of addressable bytes. */
  const Size: int := 4096

  /** Address at which programs are loaded and execution starts. */
  const LoadAddr: int := 0x200

  /** Address `base + k` as the `uint16_t` the memory unit receives: the
      sprite row `I+i` of `DXYN` and the slots `I+i` of `FX33`, `FX55` and
      `FX65`. */
  function Addr(base: u16, k: int): (a: u16)
    ensures (a - (base + k)) % 0x10000 == 0
    ensures 0 <= base + k < 0x10000 ==> a == base + k
  {
    Wrap16(base + k)
  }

  predicate InBounds(a: int) {
    0 <= a < Size
  }

  /** A memory image of the right size. */
  predicate Valid(mem: seq<byte>) {
    |mem| == Size
  }

  /** The zero-filled memory a freshly constructed memory unit starts from. */
  function Zeroed(): (mem: seq<byte>)
    ensures Valid(mem)
    ensures forall a :: 0 <= a < Size ==> mem[a] == 0
  {
    seq(Size, _ => 0)
  }

  /** Writing one byte: the byte can be read back, and no other byte changes. */
  function Write(mem: seq<byte>, a: int, b: byte): (r: seq<byte>)
    requires Valid(mem) && InBounds(a)
    ensures Valid(r)
    ensures r[a] == b
    ensures forall j :: 0 <= j < Size && j != a ==> r[j] == mem[j]
  {
    mem[a := b]
  }

  /** Outcome of an access that may fall outside memory. */
  datatype Access<T> = Done(value: T) | OutOfBounds(addr: int)

  /** A checked write. */
  function Store(mem: seq<byte>, a: int, b: byte): (r: Access<seq<byte>>)
    requires Valid(mem)
    ensures r.Done? <==> InBounds(a)
    ensures r.OutOfBounds? ==> r.addr == a
    ensures r.Done? ==> Valid(r.value) && r.value[a] == b
    ensures r.Done? ==> forall j :: 0 <= j < Size && j != a ==> r.value[j] == mem[j]
  {
    if InBounds(a) then Done(Write(mem, a, b)) else OutOfBounds(a)
  }
}

=== FILE: prototype.dfy ===
/** The earlier C prototype of the interpreter: `fetch_instr` (src/phases.c)
    and `zero_mem` (src/chip8.c). Both work on a caller-supplied buffer and
    an explicit size, which may be smaller than the buffer. */
module Prototype {
  import opened Bits
  import Memory
  import opened Decoder

  /** Return code of `fetch_instr` and the value left in `*instr`. */
  datatype FetchResult = FetchResult(status: int, instr: u16)

  /** `fetch_instr(mem, size, addr, instr)`: 1 when the two bytes at `addr`
      do not both lie below `size`, and then `*instr` keeps its earlier
      value `prior`; otherwise 0 and the big-endian word at `addr`. */
  function FetchInstr(mem: seq<byte>, size: nat, addr: u16, prior: u16): (r: FetchResult)
    requires size <= |mem|
    ensures r.status == 0 || r.status == 1
    ensures r.status == 1 <==> addr as int + 1 >= size
    ensures r.status == 1 ==> r.instr == prior
    ensures r.status == 0 ==> Bytes(r.instr) == (mem[addr], mem[addr as int + 1])
  {
    if addr >= size || addr as int + 1 >= size then
      FetchResult(1, prior)
    else
      WordIsShiftOr(mem[addr], mem[addr as int + 1]);
      FetchResult(0, Or(mem[addr] as int * 256, mem[addr as int + 1]))
  }

  /** The buffer with its first `size` bytes set to 0 and the rest kept. */
  function ZeroedPrefix(mem: seq<byte>, size: nat): (r: seq<byte>)
    requires size <= |mem|
  {
    seq(|mem|, j requires 0 <= j < |mem| => if j < size then 0 else mem[j])
  }

  /** `zero_mem(mem, size)`: the loop writing 0 to `mem[0 .. size-1]`. */
  method ZeroMem(mem: seq<byte>, size: nat) returns (r: seq<byte>)
    requires size <= |mem|
    ensures r == ZeroedPrefix(mem, size)
    ensures size == 0 ==> r == mem
    ensures Memory.Valid(mem) && size == Memory.Size ==> r == Memory.Zeroed()
  {
    r := mem;
    var i := 0;
    while i < size
      invariant 0 <= i <= size
      invariant |r| == |mem|
      invariant forall j :: 0 <= j < i ==> r[j] == 0
      invariant forall j :: i <= j < |mem| ==> r[j] == mem[j]
    {
      r := r[i := 0];
      i := i + 1;
    }
  }

  /** Zeroing is idempotent, and zeroing a prefix keeps what lies beyond it. */
  lemma ZeroedPrefixIdempotent(mem: seq<byte>, size: nat)
    requires size <= |mem|
    ensures ZeroedPrefix(ZeroedPrefix(mem, size), size) == ZeroedPrefix(mem, size)
    ensures ZeroedPrefix(mem, size)[size..] == mem[size..]
  {
  }
}

=== FILE: sprite.dfy ===
/** The sprite loop of `DXYN` (src/chip8.cpp:336-362): N rows are read from
    memory at I, I+1, ...; row i is plotted at y = VY + i and each row's 8
    pixels at x = VX, VX + 1, ..., both coordinates counting as `uint8_t`.
    Each pixel goes through `place_pixel`; the collisions are OR-ed. */
module Sprite {
  import opened Bits
  import Memory
  import opened Framebuffer

  /** The rows `from .. n-1` of the sprite at `base`; out of bounds at the
      first row whose address is outside memory. */
  function ReadRows(mem: seq<byte>, base: u16, from: nat, n: nat): (r: Memory.Access<seq<byte>>)
    requires Memory.Valid(mem) && from <= n
    ensures r.Done? <==> forall i :: from <= i < n ==> Memory.InBounds(Memory.Addr(base, i))
    ensures r.Done? ==> |r.value| == n - from
    ensures r.Done? ==> forall k :: 0 <= k < |r.value| ==> r.value[k] == mem[Memory.Addr(base, from + k)]
    ensures r.OutOfBounds? ==> !Memory.InBounds(r.addr)
    decreases n - from
  {
    if from == n then Memory.Done([])
    else
      var a := Memory.Addr(base, from);
      if !Memory.InBounds(a) then Memory.OutOfBounds(a)
      else
        match ReadRows(mem, base, from + 1, n)
        case OutOfBounds(b) => Memory.OutOfBounds(b)
        case Done(rest) => Memory.Done([mem[a]] + rest)
  }

  /** `(row >> (7 - pix)) & 0x1`: pixel `pix` of a row, most significant bit first. */
  function PixelBit(row: byte, pix: int): (b: byte)
    requires 0 <= pix < 8
    ensures b == (row / Pow2(7 - pix)) % 2
    ensures pix == 0 ==> b == row / 128
    ensures pix == 7 ==> b == row % 2
  {
    assert Pow2(7) == 128;
    Bit(row, 7 - pix)
  }

  /** A `uint8_t` coordinate that starts at `v0` and is incremented k times
      with `++`: the column `x` of pixel k (starting at VX) and the line `y`
      of row k (starting at VY). */
  function Coord(v0: byte, k: int): (c: byte)
    ensures c == (v0 + k) % 256
    ensures 0 <= k && v0 + k < 256 ==> c == v0 + k
    ensures 256 <= v0 + k < 512 ==> c == v0 + k - 256
  {
    Wrap8(v0 + k)
  }

  /** Pixels `pix .. 7` of one row. */
  function DrawRow(fb: seq<bool>, x0: byte, y: byte, row: byte, pix: nat): (r: Plot)
    requires Valid(fb) && pix <= 8
    ensures Valid(r.fb)
    ensures row == 0 ==> r == Plot(fb, false)
    decreases 8 - pix
  {
    if pix == 8 then Plot(fb, false)
    else
      var p := PlacePixel(fb, Coord(x0, pix), y, PixelBit(row, pix));
      BlankPixel(fb, Coord(x0, pix), y, row, pix);
      var rest := DrawRow(p.fb, x0, y, row, pix + 1);
      Plot(rest.fb, p.collision || rest.collision)
  }

  /** A pixel of a blank row is a 0 and leaves the buffer alone. */
  lemma BlankPixel(fb: seq<bool>, x: byte, y: byte, row: byte, pix: nat)
    requires Valid(fb) && pix < 8
    ensures row == 0 ==> PlacePixel(fb, x, y, PixelBit(row, pix)) == Plot(fb, false)
  {
    if row == 0 {
      PlaceZeroIsIdentity(fb, x, y);
    }
  }

  /** Rows `i .. |rows|-1` of a sprite. */
  function DrawRows(fb: seq<bool>, x0: byte, y0: byte, rows: seq<byte>, i: nat): (r: Plot)
    requires Valid(fb) && i <= |rows|
    ensures Valid(r.fb)
    ensures (forall k :: i <= k < |rows| ==> rows[k] == 0) ==> r == Plot(fb, false)
    decreases |rows| - i
  {
    if i == |rows| then Plot(fb, false)
    else
      var p := DrawRow(fb, x0, Coord(y0, i), rows[i], 0);
      var rest := DrawRows(p.fb, x0, y0, rows, i + 1);
      Plot(rest.fb, p.collision || rest.collision)
  }

  /** The whole DXYN loop: the new buffer and the collision flag, or the
      first sprite row address outside memory. */
  function Draw(fb: seq<bool>, mem: seq<byte>, base: u16, x0: byte, y0: byte, n: nat): (r: Memory.Access<Plot>)
    requires Valid(fb) && Memory.Valid(mem)
    ensures r.Done? ==> Valid(r.value.fb)
    ensures r.Done? <==> forall i :: 0 <= i < n ==> Memory.InBounds(Memory.Addr(base, i))
    ensures r.OutOfBounds? ==> !Memory.InBounds(r.addr)
  {
    match ReadRows(mem, base, 0, n)
    case OutOfBounds(a) => Memory.OutOfBounds(a)
    case Done(rows) => Memory.Done(DrawRows(fb, x0, y0, rows, 0))
  }
}

=== FILE: sprite_props.dfy ===
/** What the `DXYN` loop does to the framebuffer, stated without the loop:
    every cell under a 1-pixel of the sprite is toggled, every other cell is
    kept, and the collision flag says whether one of the toggled cells was
    lit before. This holds because, for a sprite of at most 15 rows, no two
    pixels of the sprite land on the same buffer cell, even where rows run
    past the bottom edge into the next column or coordinates wrap at 256. */
module SpriteProps {
  import opened Bits
  import Memory
  import opened Framebuffer
  import opened Sprite

  /** The buffer cell pixel j of a row drawn at line y is plotted to. */
  function Target(x0: byte, y: byte, j: int): nat {
    Pos(Coord(x0, j), y)
  }

  /** Cells toggled by pixels `pix .. 7` of a row: those whose bit is 1. */
  function RowCells(x0: byte, y: byte, row: byte, pix: nat): set<nat> {
    set j | pix <= j < 8 && PixelBit(row, j) == 1 :: Target(x0, y, j)
  }

  /** Cells toggled by rows `from .. |rows|-1` of a sprite. */
  function SpriteCells(x0: byte, y0: byte, rows: seq<byte>, from: nat): set<nat> {
    set i, j | from <= i < |rows| && 0 <= j < 8 && PixelBit(rows[i], j) == 1 :: Target(x0, Coord(y0, i), j)
  }

  /** The buffer `fb` with exactly the cells of `cells` toggled. */
  predicate Toggled(fb: seq<bool>, cells: set<nat>, fb': seq<bool>)
    requires Valid(fb) && Valid(fb')
  {
    forall c :: 0 <= c < Cells ==> fb'[c] == (fb[c] != (c in cells))
  }

  /** Some cell of `cells` is lit in `fb`. */
  predicate HitsLit(fb: seq<bool>, cells: set<nat>)
    requires Valid(fb)
  {
    exists c :: c in cells && c < Cells && fb[c]
  }

  /** Two pixels of one row land on different cells. */
  lemma RowTargetsDistinct(x0: byte, y: byte, j: int, j': int)
    requires 0 <= j < j' < 8
    ensures Target(x0, y, j) != Target(x0, y, j')
  {
    assert Coord(x0, j) != Coord(x0, j');
  }

  /** Two pixels of different rows land on different cells: the lines of
      rows at most 15 apart never differ by a multiple of the column height. */
  lemma RowsTargetsDistinct(x0: byte, y0: byte, i: int, i': int, j: int, j': int)
    requires 0 <= i < i' < 16 && 0 <= j < 8 && 0 <= j' < 8
    ensures Target(x0, Coord(y0, i), j) != Target(x0, Coord(y0, i'), j')
  {
    var x, x' := Coord(x0, j), Coord(x0, j');
    var y, y' := Coord(y0, i), Coord(y0, i');
    if y0 + i' < 256 {
      assert y == y0 + i && y' == y0 + i';
    } else if y0 + i >= 256 {
      assert y == y0 + i - 256 && y' == y0 + i' - 256;
    } else {
      assert y == y0 + i && y' == y0 + i' - 256;
    }
    assert x * Height + y != x' * Height + y';
  }

  /** Peeling off the first pixel of a row. */
  lemma RowCellsStep(x0: byte, y: byte, row: byte, pix: nat)
    requires pix < 8
    ensures RowCells(x0, y, row, pix)
            == (if PixelBit(row, pix) == 1 then {Target(x0, y, pix)} else {}) + RowCells(x0, y, row, pix + 1)
    ensures Target(x0, y, pix) !in RowCells(x0, y, row, pix + 1)
  {
    forall j | pix < j < 8 { RowTargetsDistinct(x0, y, pix, j); }
  }

  /** Peeling off the first row of a sprite. */
  lemma SpriteCellsStep(x0: byte, y0: byte, rows: seq<byte>, from: nat)
    requires from < |rows| <= 16
    ensures SpriteCells(x0, y0, rows, from)
            == RowCells(x0, Coord(y0, from), rows[from], 0) + SpriteCells(x0, y0, rows, from + 1)
    ensures RowCells(x0, Coord(y0, from), rows[from], 0) !! SpriteCells(x0, y0, rows, from + 1)
  {
    forall i, j, j' | from < i < |rows| && 0 <= j < 8 && 0 <= j' < 8 {
      RowsTargetsDistinct(x0, y0, from, i, j, j');
    }
  }

  /** One plot of a 0 or 1 toggles the cell under a 1 and collides when
      that cell was lit. */
  lemma PlaceToggles(fb: seq<bool>, x: byte, y: byte, pixval: byte)
    requires Valid(fb) && pixval <= 1
    ensures var cells := if pixval == 1 then {Pos(x, y)} else {};
      && Toggled(fb, cells, PlacePixel(fb, x, y, pixval).fb)
      && PlacePixel(fb, x, y, pixval).collision == HitsLit(fb, cells)
  {
  }

  /** Toggling two disjoint sets of cells one after the other toggles their
      union, and the second set meets the same lit cells before and after
      the first toggling. */
  lemma ToggleCompose(fb: seq<bool>, fb1: seq<bool>, fb2: seq<bool>, first: set<nat>, second: set<nat>)
    requires Valid(fb) && Valid(fb1) && Valid(fb2) && first !! second
    requires Toggled(fb, first, fb1) && Toggled(fb1, second, fb2)
    ensures Toggled(fb, first + second, fb2)
    ensures HitsLit(fb1, second) == HitsLit(fb, second)
    ensures HitsLit(fb, first + second) == (HitsLit(fb, first) || HitsLit(fb, second))
  {
    assert forall c :: 0 <= c < Cells && c in second ==> fb1[c] == fb[c];
  }

  /** Pixels `pix .. 7` of a row toggle exactly their lit cells and collide
      exactly when one of those cells was lit. */
  lemma {:induction false} DrawRowEffect(fb: seq<bool>, x0: byte, y: byte, row: byte, pix: nat)
    requires Valid(fb) && pix <= 8
    ensures Toggled(fb, RowCells(x0, y, row, pix), DrawRow(fb, x0, y, row, pix).fb)
    ensures DrawRow(fb, x0, y, row, pix).collision == HitsLit(fb, RowCells(x0, y, row, pix))
    decreases 8 - pix
  {
    if pix == 8 {
      assert RowCells(x0, y, row, pix) == {};
    } else {
      var b := PixelBit(row, pix);
      var p := PlacePixel(fb, Coord(x0, pix), y, b);
      PlaceToggles(fb, Coord(x0, pix), y, b);
      DrawRowEffect(p.fb, x0, y, row, pix + 1);
      RowCellsStep(x0, y, row, pix);
      var here: set<nat> := if b == 1 then {Target(x0, y, pix)} else {};
      ToggleCompose(fb, p.fb, DrawRow(p.fb, x0, y, row, pix + 1).fb, here, RowCells(x0, y, row, pix + 1));
    }
  }

  /** Rows `from .. |rows|-1` toggle exactly the sprite's lit cells and
      collide exactly when one of those cells was lit. */
  lemma {:induction false} DrawRowsEffect(fb: seq<bool>, x0: byte, y0: byte, rows: seq<byte>, from: nat)
    requires Valid(fb) && from <= |rows| <= 16
    ensures Toggled(fb, SpriteCells(x0, y0, rows, from), DrawRows(fb, x0, y0, rows, from).fb)
    ensures DrawRows(fb, x0, y0, rows, from).collision == HitsLit(fb, SpriteCells(x0, y0, rows, from))
    decreases |rows| - from
  {
    if from == |rows| {
      assert SpriteCells(x0, y0, rows, from) == {};
    } else {
      var p := DrawRow(fb, x0, Coord(y0, from), rows[from], 0);
      DrawRowEffect(fb, x0, Coord(y0, from), rows[from], 0);
      DrawRowsEffect(p.fb, x0, y0, rows, from + 1);
      SpriteCellsStep(x0, y0, rows, from);
      ToggleCompose(fb, p.fb, DrawRows(p.fb, x0, y0, rows, from + 1).fb,
                    RowCells(x0, Coord(y0, from), rows[from], 0), SpriteCells(x0, y0, rows, from + 1));
    }
  }

  /** Drawing the same sprite twice at the same place restores the buffer. */
  lemma DrawTwiceRestores(fb: seq<bool>, x0: byte, y0: byte, rows: seq<byte>)
    requires Valid(fb) && |rows| <= 16
    ensures var once := DrawRows(fb, x0, y0, rows, 0);
      DrawRows(once.fb, x0, y0, rows, 0).fb == fb
  {
    var once := DrawRows(fb, x0, y0, rows, 0);
    var twice := DrawRows(once.fb, x0, y0, rows, 0);
    DrawRowsEffect(fb, x0, y0, rows, 0);
    DrawRowsEffect(once.fb, x0, y0, rows, 0);
    assert forall c :: 0 <= c < Cells ==> twice.fb[c] == fb[c];
  }

  /** On a blank buffer a sprite never collides, and drawing it again then
      collides exactly when one of its lit pixels is on screen. */
  lemma DrawOnBlank(fb: seq<bool>, x0: byte, y0: byte, rows: seq<byte>)
    requires Valid(fb) && IsBlank(fb) && |rows| <= 16
    ensures !DrawRows(fb, x0, y0, rows, 0).collision
    ensures DrawRows(DrawRows(fb, x0, y0, rows, 0).fb, x0, y0, rows, 0).collision
            == exists c :: c in SpriteCells(x0, y0, rows, 0) && c < Cells
  {
    var once := DrawRows(fb, x0, y0, rows, 0);
    DrawRowsEffect(fb, x0, y0, rows, 0);
    DrawRowsEffect(once.fb, x0, y0, rows, 0);
  }

  /** The whole `DXYN` loop, when every row is in memory: the buffer toggled
      at the cells of the rows read from `base`, and the collision flag. */
  lemma DrawEffect(fb: seq<bool>, mem: seq<byte>, base: u16, x0: byte, y0: byte, n: nat)
    requires Valid(fb) && Memory.Valid(mem) && n < 16
    requires forall i :: 0 <= i < n ==> Memory.InBounds(Memory.Addr(base, i))
    ensures var rows := ReadRows(mem, base, 0, n).value;
      var r := Draw(fb, mem, base, x0, y0, n).value;
      && |rows| == n
      && (forall i :: 0 <= i < n ==> rows[i] == mem[Memory.Addr(base, i)])
      && Toggled(fb, SpriteCells(x0, y0, rows, 0), r.fb)
      && r.collision == HitsLit(fb, SpriteCells(x0, y0, rows, 0))
  {
    DrawRowsEffect(fb, x0, y0, ReadRows(mem, base, 0, n).value, 0);
  }
}
